=== FILE: README.md ===
# pita: a cascading property store, modelled in Dafny

pita serves properties stored as YAML documents in a directory tree. A
request for the path `a/b/c` reads `a.yaml`, `a/b.yaml` and `a/b/c.yaml`
under the database directory and shallow-merges the mapping documents, so
a deeper document overrides a shallower one key by key. Around this
resolver sit:

- views: stored or posted lists of paths whose resolutions are listed or
  merged;
- a node listing;
- a write path that creates nodes, upserts keys and deletes them;
- a file watcher that starts a command or an HTTP request when a watched
  file changes.

The model takes the file system as a value. A `Documents.Store` holds
four parts:

- the directories, as locations: component lists relative to the
  database directory;
- the document files, each either unparsable or holding a value that
  stands for what the YAML parser returns (see "## Left out" for what the
  value type cannot hold), keyed by the node they belong to: the node `a/b`
  has the file `a/b.yaml`;
- the view directory's files, or the fact that there is no view
  directory;
- the names of the view directory's sub-directories.

A directory and a document file can clash. The directory `a/b.yaml` has
the same name as the document file of the node `a/b`
(`Documents.DocEntry`). When a document file has the name a directory
needs, that directory is `Documents.Occupied`. `Documents.Consistent`
says that no directory shares its name with a file. `Dir.glob('*.yaml')`
reports directories too, so a directory `b.yaml` is listed as if it were
the document of `b`. `create_empty_yaml` fails at a node where a name is
taken. `mkdir_p` raises when a document file stands where it has to make
a directory (`Writes.MkdirBlocked`). `File.open` raises when the
document's name is a directory (`Writes.WriteBlocked`). Both exceptions
are rescued and logged, and the walk goes on.

A JSON body is parsed as JSON 2 does it: the top level may be any value.
`Documents.Parsed` tells a Hash, a string, and any other value apart,
because `data['path']` means something different for each.

Every operation is a pure function of the store. `return_error` halts a
Sinatra request, so it becomes an early `Err(code)` result. An uncaught
Ruby exception inside a request becomes `Err(500)`. Two examples are
`has_key?` on a scalar document and `nil.each` in a view.

`pita.rb` is the application; it does not load the `lib/` files.
`lib/file_ops.rb` and `lib/yaml_ops.rb` repeat its functions inside the
modules `FileOps` and `YamlOps`. `lib/file_watcher.rb` repeats its watcher
block inside a class `FileWatcher` (lib/file_watcher.rb:1), which belongs
to neither module. That class adds a watcher counter with no counterpart
in `pita.rb`: the class variable `@@count`, its reader `count`, its writer
`count=`, and a constructor that raises it by one
(lib/file_watcher.rb:4-31). The `Watcher` counter members model that
counter. The copies differ from `pita.rb` in one more way: where `pita.rb`
calls `load_yaml`, the copies call `YamlOps.load_yaml`
(lib/file_ops.rb:65, 85, 122; lib/file_watcher.rb:42). `load_yaml` is an
instance method of `YamlOps` (lib/yaml_ops.rb:1-2), not a module function,
so as written each of those calls raises `NoMethodError`. The model
follows the `pita.rb` versions, which call `load_yaml` directly. It
defines each function once, and the table below cites either copy for the
logic the two share. The copies correspond as follows:

| pita.rb | lib copy |
|---|---|
| `list_entries` 199-227 | `lib/file_ops.rb` 2-30 |
| `list_views` 229-246 | `lib/file_ops.rb` 32-49 |
| `read_data` 248-277 | `lib/file_ops.rb` 51-80 |
| `read_view` 279-303 | `lib/file_ops.rb` 82-106 |
| `get_relevantfile` 305-331 | `lib/file_ops.rb` 108-134 |
| `load_yaml` 333-355 | `lib/yaml_ops.rb` 2-24 |
| `create_empty_yaml` 357-383 | `lib/yaml_ops.rb` 26-52 |
| `update_yaml` 385-405 | `lib/yaml_ops.rb` 54-74 |
| `delete_key_in_yaml` 407-424 | `lib/yaml_ops.rb` 76-93 |
| watcher block 47-72 | `lib/file_watcher.rb` 38-65 |

Ruby's path handling is modelled as the code uses it, including its
corners:

- `path.split('/')` drops trailing empty fields but keeps leading and
  inner ones (`Strings.Split`).
- `File.join(a, b)` does not collapse separator runs. If `b` starts with
  '/', the trailing separators of `a` are dropped. Otherwise, if `a`
  already ends in '/', nothing is inserted, and if not, one '/' is
  inserted (`Paths.Join`). Joining the empty step gives `<dir>/`, so the
  next file read is `<dir>/.yaml`, the file `.yaml` inside the directory,
  and the walk does not descend (`Paths.Locations`).
- `Dir.glob('*.yaml')` does not report names that start with a dot
  (`Paths.Visible`). It reports every entry whose name ends in `.yaml`,
  directories included (`Paths.YamlName`, `Paths.Stem`).
- `File.basename(s, suffix)` takes the last component after dropping
  trailing separators ("/" for a name of separators only). It removes
  `suffix` only when the component is longer than it (`Paths.Basename`).
- `File.extname` is the Ruby behaviour before 2.7 outside Windows. It works
  on the same last component, skips its leading dots, and takes the text
  from the last '.'. It gives "" when there is no such '.', and also when
  that '.' is the last character (`Paths.ExtName`).

On a clean path, one with no empty component, all of these reduce to the
plain reading (`Paths.CleanChain`).

Files: `outcomes.dfy` (results and status codes), `strings.dfy`,
`paths.dfy`, `documents.dfy` (values, the store, `load_yaml`),
`resolver.dfy` (`read_data`, `get_relevantfile`), `views.dfy`,
`listing.dfy`, `writes.dfy`, `watcher.dfy`, `routes.dfy`.

## Model

| member | source | states |
|---|---|---|
| Strings.UnfieldsOfFields | pita.rb:253 | splitting on a separator and rejoining gives back the original text |
| Strings.FieldsOfUnfields | pita.rb:253 | joining separator-free fields and splitting again gives back the fields |
| Strings.SplitOfFree | lib/file_ops.rb:56 | a non-empty text without the separator splits into itself alone |
| Strings.DropTrailingEmpty | lib/file_ops.rb:56 | the split keeps a prefix of the fields, ends in a non-empty field, and drops only empty ones |
| Strings.Split | pita.rb:253 | every field of `split` is free of the separator, and the last field is never empty |
| Strings.SplitRejoins | lib/file_ops.rb:56 | `split` is empty exactly when the text is only separators; otherwise rejoining the fields gives the text without its trailing separators |
| Strings.RemoveFirst | lib/file_watcher.rb:39 | `sub` removes the first occurrence of the pattern and leaves the rest in place; without an occurrence the text is unchanged |
| Strings.IndexFrom | pita.rb:48 | the first occurrence of the pattern at or after a position: it occurs there and at no earlier position |
| Strings.RemoveFirstOfPrefix | pita.rb:48 | removing the first occurrence of the directory name from `<dir><rel>` leaves `rel` |
| Strings.RemoveFirstLength | lib/file_watcher.rb:39 | a name without the pattern is unchanged; otherwise it shrinks by exactly the pattern's length |
| Paths.CleanChain | pita.rb:253-258 | for a path without empty components, the i-th file read is the first i+1 components, and the last file read is the leaf `File.join(db, path + '.yaml')` |
| Paths.LocationsOfNonEmptySteps | lib/file_ops.rb:59-61 | walking non-empty steps reads, at step i, the directory prefix of the first i+1 steps |
| Paths.JoinPlain | pita.rb:212 | `File.join` of two names without separators at the seam puts exactly one '/' between them |
| Paths.Join | pita.rb:212 | `File.join(a, b)` ends in `b` and starts with `a` less its trailing separators, with only separators between. When `b` starts with '/', `a`'s trailing separators are dropped; otherwise one '/' is added exactly when `a` does not already end in one |
| Paths.JoinKeepsRuns | lib/file_ops.rb:15 | separator runs on either side of the seam are kept, and one '/' is inserted between two plain names |
| Paths.LastComponent | pita.rb:105 | the last component is the separator-free end of the name once trailing separators are dropped, preceded by a '/' or by nothing; it is non-empty unless the name is all separators |
| Paths.Basename | pita.rb:105 | `File.basename` is "" for "", "/" for a name of separators only, and otherwise the last component, shortened by the suffix exactly when the component is longer than the suffix and ends in it |
| Paths.BasenameOfFree | lib/file_ops.rb:9 | for a non-empty separator-free name, `basename(name, suffix)` is the name less the suffix when it properly ends in it, and the name otherwise |
| Paths.Extension | pita.rb:104 | after leading dots, the extension is "" exactly when there is no '.' or the text ends in '.'; otherwise it is a proper ending that starts with its only '.' and has at least one more character |
| Paths.ExtName | pita.rb:104 | `File.extname` is "" exactly when the last component, less its leading dots, has no '.' or ends in '.'; otherwise it is the ending from the last '.' |
| Paths.DottedName | pita.rb:104-105 | a separator-free key ending in '.' has no extension and is its own basename |
| Paths.DirKeyOfSteps | lib/yaml_ops.rb:29-33 | skipping the empty steps and joining the others reaches the directory `File.join(db, path)` names |
| Paths.PlainName | pita.rb:104-105 | a key without '.' or '/' has no extension and is its own basename |
| Paths.JsonName | pita.rb:104-105 | `k.json` has the extension `.json` and the basename `k` |
| Paths.StemOf | pita.rb:206 | `basename("n.yaml", ".yaml")` gives back `n`: the name `n.yaml` ends in `.yaml` and its stem is `n` |
| Paths.StemJoin | pita.rb:206-207 | a name ending in `.yaml` is its stem followed by `.yaml` |
| Documents.LoadYaml | lib/yaml_ops.rb:2-24 | load_yaml raises exactly when the file is missing, exactly when it does not parse, and exactly when it parses to `false`; otherwise it returns the parsed value unchanged |
| Documents.ToMap | pita.rb:396-398 | a Hash built from entries has exactly the keys of the entries |
| Documents.ToMapLastWins | lib/yaml_ops.rb:65-67 | each key of a Hash built from entries holds the value of its last entry |
| Documents.Entries | lib/file_watcher.rb:42 | walking a Hash built from YAML entries meets each key once, with the value of its last entry. The keys come in the order of their first appearance, so the first entry's key comes first |
| Documents.EntriesStep | lib/file_watcher.rb:42 | one more pair keeps one entry per key, adds the pair's key, and keeps the first key in front |
| Documents.EntriesValues | lib/file_watcher.rb:42 | one more pair: every entry holds the value the whole Hash gives its key |
| Documents.OrderStep | lib/file_watcher.rb:42 | one more pair keeps the entries in the order of their keys' first appearance |
| Documents.Position | lib/file_watcher.rb:42 | the first position of a key among the pairs, or the length when the key is absent |
| Documents.OccupiedByDoc | pita.rb:366-370 | a node's document file stands where the directory of its document name would go exactly when the document exists |
| Documents.OccupiedByNew | pita.rb:370-372 | writing the document of `d` occupies no directory name but its own document name |
| Resolver.ReadData | pita.rb:261-266 | every failure of read_data is 404 |
| Resolver.Merged | lib/file_ops.rb:71-76 | a key is in the merge exactly when some mapping document defines it |
| Resolver.MergedLastWins | pita.rb:268-273 | in the merge, a key holds the value of the last mapping document that defines it |
| Resolver.ReadStepsMerges | pita.rb:256-276 | the walk from any accumulator succeeds exactly when every file loads, and then gives the accumulator merged with the left fold of the mapping documents |
| Resolver.ReadDataIsMerge | pita.rb:248-277 | read_data succeeds exactly when every file on the path loads, even non-mapping ones, and then equals the left-to-right merge of the mapping documents |
| Resolver.ReadDataDeepestWins | lib/file_ops.rb:71-76 | a key in the resolution holds the value of the deepest document that defines it |
| Resolver.LastMapping | lib/file_ops.rb:71-73 | the last mapping document on a path, or none: later documents are not mappings |
| Resolver.ReadStepsReplaces | lib/file_ops.rb:59-78 | with disable_merge, the walk gives the last mapping document, or the accumulator when there is none |
| Resolver.ReadDataReplaces | lib/file_ops.rb:71-76 | with disable_merge, read_data succeeds exactly when every file loads, and then gives the last mapping document, which need not be the deepest document, or the empty mapping |
| Resolver.ReadStepsFailure | lib/file_ops.rb:64-69 | a missing or unparsable file anywhere on the path (or one that parses to false) makes the walk 404, merging or not |
| Resolver.EmptyPathReadsNothing | lib/file_ops.rb:52-59 | the paths "" and "/" resolve to the empty mapping whatever the store holds: no file is read |
| Resolver.RelevantSteps | pita.rb:313-330 | the search answers with a file that it read or had already found and whose own document has the key, or fails with 404 or 500 |
| Resolver.GetRelevantFile | pita.rb:305-331 | get_relevantfile answers with a file on the path whose own document has the key, or fails with 404 or 500 |
| Resolver.LastDefining | lib/file_ops.rb:128-130 | the position of the deepest document on the path that has the key: no later document has it |
| Resolver.RelevantStepsFindsLast | lib/file_ops.rb:116-131 | when every file loads and is a mapping or nil, the search picks the last file that has the key, or keeps the file found earlier |
| Resolver.RelevantStepsStuck | lib/file_ops.rb:121-129 | a file that does not load, or that is neither a mapping nor nil, makes the search fail |
| Resolver.RelevantFileIsDeepest | lib/file_ops.rb:108-134 | get_relevantfile gives the deepest file whose unmerged document has the key, even when a shallower one has it too, and 404 when none has it |
| Listing.DocumentNames | pita.rb:204 | `Dir.glob('*.yaml')` gives exactly the visible names `n` for which the directory holds a document `n.yaml` or a sub-directory `n.yaml` |
| Listing.ChildEntries | lib/file_ops.rb:7-18 | one finding per document name, each the one its name determines |
| Listing.ListEntries | lib/file_ops.rb:2-30 | a directory wins over a document of the same name. It lists exactly one entry per visible `*.yaml` child, file or directory, and each is typed Directory exactly when a sibling directory of its stem exists, with the url `properties/<path>/<name>`. Otherwise an existing document gives one File entry whose url ends in `eachpair`; otherwise the answer is 404 |
| Listing.EntryUrl | lib/file_ops.rb:15 | for a path without outer '/', the entry url is `properties/<path>/<name>` |
| Listing.ViewEntries | lib/file_ops.rb:36-43 | one View finding per view name, each the one its name determines |
| Listing.ListViews | pita.rb:229-246 | the views are listed exactly when the view directory exists: one View entry per visible `*.yaml` entry, file or sub-directory, with the url `view/<name>`; otherwise 404 |
| Views.ViewName | pita.rb:280 | the view file's name is separator-free: the argument's last component, with `.yaml` removed when it ends in it, and the file `.yaml` for an argument of separators only |
| Views.ViewNameOfFile | lib/file_ops.rb:83 | `v.yaml` and `v` name the same view file |
| Views.ViewSource | lib/file_ops.rb:83-92 | a stored view file wins: one that does not load is 500 and one that loads gives its value. Without a stored file, an argument that is not JSON is 400 and one that is gives its parsed value |
| Views.Evaluate | lib/file_ops.rb:95-104 | an empty list gives the accumulator; with entries, a verb other than list or merge gives 406; any failure is 404, 406 or 500 |
| Views.ReadView | pita.rb:279-303 | read_view passes on the source's 400 or 500, and fails only with 400, 404, 406 or 500 |
| Views.Resolutions | lib/file_ops.rb:98-100 | the resolutions of the view's paths, one per path, in order |
| Views.ResolvableCons | lib/file_ops.rb:95 | a view's paths all resolve exactly when the first does and the rest all do |
| Views.EvaluateMerges | lib/file_ops.rb:99-100 | with merge, the walk from any accumulator gives the accumulator merged with the fold of the resolutions |
| Views.MergeViewIsFold | lib/file_ops.rb:93-100 | a merge view's result is the left fold of the paths' resolutions, later ones overwriting earlier ones |
| Views.NamedCons | lib/file_ops.rb:98 | the paths a list view names are the first path plus those the rest names |
| Views.EvaluateLists | lib/file_ops.rb:97-98 | with list, the walk adds exactly the named paths, each with its own resolution, and keeps other keys |
| Views.ListViewMapsEachPath | lib/file_ops.rb:93-98 | a list view maps exactly its paths, each to its own resolution |
| Views.UnresolvedPathFails | lib/file_ops.rb:98-100 | the first path that does not resolve makes the whole view 404 |
| Views.ListView | pita.rb:291-295 | a view whose first key is list with a list of resolvable paths maps each path to its resolution |
| Views.MergeView | pita.rb:296-297 | a view whose first key is merge gives the fold of its paths' resolutions |
| Views.ViewOfUnresolvedPath | pita.rb:292-297 | a list or merge view with an unresolvable path is 404 |
| Views.UnsupportedVerb | lib/file_ops.rb:94-103 | any other verb gives 406 only when its path list is non-empty; an empty one gives the empty result |
| Views.StoredViewWins | lib/file_ops.rb:83-85 | a stored view file is used in preference to the argument: the JSON parser is not consulted |
| Writes.AncestorsArePrefixes | lib/yaml_ops.rb:35-37 | the directories `mkdir_p` may create for a directory are exactly its prefixes |
| Writes.EnsureNode | pita.rb:364-379 | one node: the directory and then an empty document are created only when absent, so nothing existing changes, and only the node's prefixes are added. When `mkdir_p` meets a document file the step changes nothing. When a directory has the document's name no document is written. Without a fault, and with nothing in the way, both exist afterwards |
| Writes.EnsureNodeFree | pita.rb:366-372 | the directories a step makes are not occupied by document files and come with all their prefixes, and a document it writes has no directory of its name |
| Writes.EnsureNodeConsistent | pita.rb:364-379 | a step keeps a consistent tree consistent |
| Writes.AncestorsOfAncestor | lib/yaml_ops.rb:35-37 | the prefixes of a prefix of `d` are prefixes of `d` |
| Writes.DocEntryNotAncestor | lib/yaml_ops.rb:36-40 | a node's directory never has the name of the node's own document |
| Writes.NodesBelow | pita.rb:360-364 | every node of the walk lies strictly below where the walk starts |
| Writes.ClearPersists | lib/yaml_ops.rb:33-48 | a step above a node adds nothing in that node's way |
| Writes.DocEntryNotBelow | lib/yaml_ops.rb:33-40 | no prefix of a path below a node is that node's document |
| Writes.CreateSteps | lib/yaml_ops.rb:30-49 | the walk keeps every existing document and adds only empty documents at its nodes |
| Writes.CreateStepsMakes | lib/yaml_ops.rb:30-49 | every node of the walk that no fault hits and nothing stands in the way of ends with its directory and its document |
| Writes.CreateStepsFree | lib/yaml_ops.rb:35-37 | every directory the walk makes is free of document files and comes with all its prefixes |
| Writes.CreateStepsConsistent | lib/yaml_ops.rb:30-49 | the walk keeps a consistent tree consistent |
| Writes.CreateStepsBlockedWrite | lib/yaml_ops.rb:39-47 | a node whose document name is a directory ends the walk without a document |
| Writes.CreateStepsBlockedDirs | lib/yaml_ops.rb:35-47 | a directory `mkdir_p` would have to make through a document file is not made |
| Writes.CreateStepsDirs | lib/yaml_ops.rb:30-49 | the walk adds only directories on the way to its last node |
| Writes.CreateEmptyYaml | pita.rb:357-383 | create_empty_yaml never overwrites, only adds empty mappings at the path's nodes, and only adds directories on the way to the path's directory. Every node that no fault hits and nothing stands in the way of gets its directory and document, even when a fault hits another node |
| Writes.CreateBlocked | pita.rb:364-379 | a directory that would have to be made through a document file is not made, a node whose document name is a directory gets no document, and a consistent tree stays consistent |
| Writes.EnsureNodeSettles | lib/yaml_ops.rb:35-44 | after a fault-free step the node is settled: its directory and its document exist, or the document's name is a directory, or its directory cannot be made |
| Writes.EnsureNodeNoop | lib/yaml_ops.rb:35-44 | a fault-free step at a settled node changes nothing |
| Writes.CreateStepsSettles | lib/yaml_ops.rb:30-49 | after a fault-free walk every node is settled |
| Writes.CreateStepsNoop | lib/yaml_ops.rb:35-44 | a fault-free walk over settled nodes changes nothing |
| Writes.CreateIdempotent | lib/yaml_ops.rb:26-52 | a second fault-free create_empty_yaml leaves the store as the first left it, whatever stood in the way |
| Writes.CreateMakesLeaf | lib/yaml_ops.rb:29-44 | after a fault-free creation of a clean path whose leaf nothing stands in the way of, its directory and its leaf document exist |
| Writes.CreateBesideDirectory | pita.rb:370-377 | a clean path whose document name is already a directory gets no document, faults or not |
| Writes.Table | lib/yaml_ops.rb:61-63 | the store transaction raises, giving 500, exactly when the file holds neither a mapping nor false |
| Writes.Upsert | lib/yaml_ops.rb:65-67 | assigning the payload key by key gives the table's keys plus the payload's, and a key the payload does not name keeps its value |
| Writes.UpsertIsOverride | lib/yaml_ops.rb:65-67 | upserting the payload key by key equals overriding the table with the payload |
| Writes.UpdateYaml | pita.rb:385-405 | update_yaml is 404 when the leaf file is missing; otherwise it is 500 exactly when the file holds no table, the payload is no Hash, or the write fails; on success every payload key takes its value, other keys and other files are unchanged |
| Writes.UpdateThenRead | lib/yaml_ops.rb:54-74 | after an update of a clean path, resolving the path gives every updated key its new value |
| Writes.DeleteKeyInYaml | lib/yaml_ops.rb:76-93 | delete_key_in_yaml fails exactly when get_relevantfile does; otherwise it removes the key from that one file only, and a failed write is logged and leaves the store unchanged |
| Watcher.Apply | lib/file_watcher.rb:10-31 | a construction adds one to the count; `count=` sets it |
| Watcher.LastAssign | lib/file_watcher.rb:10-12 | the last `count=` of a sequence: only constructions follow it |
| Watcher.RunCount | lib/file_watcher.rb:4-31 | the count is the last value assigned, or the start value, plus one per watcher constructed since |
| Watcher.ConstructionsOnly | lib/file_watcher.rb:29-31 | without `count=`, each construction raises the count by exactly one and it never decreases |
| Watcher.AssignOverwrites | lib/file_watcher.rb:10-12 | after `count=`, the count is the value given |
| Watcher.FirstToken | lib/file_watcher.rb:44 | the first space-delimited token of an action, when the split leaves one |
| Watcher.Classify | lib/file_watcher.rb:44-62 | a matching action fires exactly when it is a string with a first token, and is spawned exactly when that token is executable, requested otherwise |
| Watcher.Matching | lib/file_watcher.rb:43 | every rule kept is one of the rules and has the changed name as its path, and every such rule is kept |
| Watcher.Fire | pita.rb:50-72 | at most one intent per matching rule is started, and exactly one per matching rule when the callback does not raise |
| Watcher.FireRaises | lib/file_watcher.rb:44-52 | the callback raises exactly when some rule for the changed name has an action that is not a string or has no first token |
| Watcher.FireIntents | pita.rb:50-72 | the j-th intent started is the one the j-th matching rule's action classifies to, in rule order |
| Watcher.FireOnlyOnMatch | pita.rb:51 | the outcome is that of the matching rules alone: rules for other names, prefixes or patterns do not fire |
| Watcher.NoMatch | lib/file_watcher.rb:43 | no rule for the changed name means no matching rule |
| Watcher.SoleMatch | lib/file_watcher.rb:42-43 | with distinct paths, a rule for the changed name is the only matching rule |
| Watcher.FireAtMostOnce | lib/file_watcher.rb:42-62 | with distinct paths, one event starts at most one action: the matching rule's, or none |
| Watcher.ChangedName | lib/file_watcher.rb:39 | stripping the database directory never lengthens the name |
| Watcher.ChangedNameOfNested | pita.rb:48 | a change to `<db><rel>` is seen as `rel` |
| Watcher.FireOnEntries | pita.rb:49-72 | over a Hash's entries, a changed name without a rule starts nothing, and one with a rule gives the outcome of that rule's value alone |
| Watcher.Callback | lib/file_watcher.rb:38-65 | the rule table is read on each event; a table that is missing, unparsable or not a mapping raises; otherwise the walk over the Hash decides the outcome, and a path listed twice gives one rule, the later one |
| Watcher.CallbackOnRule | pita.rb:47-72 | a change to a path the table has a string action for, with a first token, starts exactly that action: spawned when its first token is executable, requested otherwise |
| Watcher.CallbackWithoutRule | lib/file_watcher.rb:42-43 | a change to a path the table has no key for starts nothing |
| Routes.KeyRoute | pita.rb:102-116 | the key route is 404 when the path does not resolve or the key's value is nil or absent, then 400 for an extension other than none or `.json`, and otherwise `{key => value}` |
| Routes.SameKey | pita.rb:103-115 | two key parameters with the same basename and supported extensions get the same answer |
| Routes.KeyJsonIsKey | pita.rb:103-106 | asking for `k.json` is the same as asking for `k` |
| Routes.DottedKeyIsItself | pita.rb:103-115 | a key ending in '.' is looked up whole: the answer is 404 or `{key => value}`, never 400 |
| Routes.KeyRouteFindsDeepest | pita.rb:103-115 | a plain key answers with the value of the deepest document that defines it |
| Routes.EachpairRoute | pita.rb:118-129 | eachpair succeeds exactly when the path resolves and the extension is none or `.json`; a failed resolution is 404 before the extension is checked; the answer is the merge of the path's documents |
| Routes.FilenameRoute | pita.rb:92-100 | the filename route answers `{key => file}` for the deepest file whose own document has the key, and 404 when none has it |
| Routes.PutProperties | pita.rb:160-169 | a body that is not JSON is 400; otherwise the answer is update_yaml's, which on success keeps the set of files |
| Routes.PostCreate | pita.rb:175-184 | a body that is not JSON is 400. A Hash body succeeds exactly when its "path" is a string, and then creates that path. A string body succeeds exactly when it contains the text `path`, and then creates the node `path`, because `String#[]` returns the text it finds. Any other body is 500 |
| Routes.PostCreateOfText | pita.rb:182 | a JSON string containing `path` creates the node `path` |
| Routes.TopName | pita.rb:360-364 | a name without '/' is clean and is its own single node |
| Routes.TopCreate | pita.rb:357-383 | creating a top-level name nothing stands in the way of makes its directory and document, and nothing else but the root |
| Routes.TopBlocked | pita.rb:365-367 | creating a top-level name whose directory `mkdir_p` cannot make changes nothing |
| Routes.TopBesideDirectory | pita.rb:365-377 | creating a plain top-level name whose document name is a directory makes its directory but no document |
| Routes.TopPlainDir | pita.rb:365-368 | a fault-free creation of a plain top-level name always leaves its directory |
| Routes.PlainNotBlocked | pita.rb:366-367 | nothing can stop `mkdir_p` of a top-level name that does not end in `.yaml` |
| Routes.DocumentOccupies | pita.rb:366-367 | the document of `n` stands where the directory `n.yaml` would go |
| Routes.DirectoryBeforeDocument | pita.rb:364-377 | creating `n.yaml` and then `n` leaves `n` a directory without a document, and the root listing names both `n` and `n.yaml` |
| Routes.DocumentBeforeDirectory | pita.rb:364-377 | creating `n` and then `n.yaml` leaves the store as the first call left it: `mkdir_p` of `n.yaml` raises |
| Routes.ListedViewIsRead | pita.rb:233-237 | a view file the listing names, when its name is separator-free and does not end in `.yaml`, is the file `GET /view/<name>` reads (pita.rb:147-148, 280-282): a stored file that does not load is 500 and one that loads gives its value |
| Routes.ListedYamlView | pita.rb:280 | a listed name `m.yaml` is read as the view `m`, because `read_view` strips `.yaml` before adding it back |
| Routes.PostCreateTwice | pita.rb:182 | posting the same node twice without faults leaves the store as the first post left it |

## Left out

- YAML and JSON parsing: a file holds either "does not parse" or the parsed value. The JSON parser is a function parameter of `Views.ReadView`.
- Documents.Value: mapping keys are strings only. Psych reads YAML 1.1 scalars such as `on`, `off`, `yes`, `no`, `1` and `~` as boolean, integer or nil keys, so in Ruby `off: 1` loads as `{false => 1}` and the key route for `off` is 404. Such documents cannot be represented: the model can only hold the key as the string "off". Floats, dates and other scalars have no variant of their own and stand in as `Int` or `Str`.
- Regular files other than `*.yaml` documents are not part of the store. A plain file such as `db/a` also makes `mkdir_p` raise in `create_empty_yaml`; the model represents it only as a `MkdirFails` fault at that node, and `Writes.Clear` does not see it.
- Sinatra routing: which route a URL selects, redirects, `to_json`, the list routes' choice of `/` for a missing splat (pita.rb:131-141), and the fallback 404 routes.
- log4r, configuration loading, and the `uri()` helper. `uri()` is modelled as plain concatenation of the base URL.
- `File.expand_path`: `get_relevantfile` and the filename route answer with the file's location in the store, not with an absolute path name.
- Names with `.` or `..` components: the store does not normalise them.
- The lib copies' `YamlOps.load_yaml` calls, which raise `NoMethodError` as written: the model follows `pita.rb`, which the application runs.
- Paths.Basename: the suffix `.*`, which strips any extension, is not modelled; the code passes either a literal suffix or the `File.extname` result, which `basename` strips the same way.
- Paths.ExtName: Ruby 2.7 changed `File.extname("a.")` to "."; the model follows the older behaviour.
- inotify and EventMachine: the watch, the child process and the HTTP client. The callback returns the intents it would start (`Watcher.Intent`), and executability is a function parameter. A failed spawn or request is rescued and logged, so it does not appear in the outcome.
- The mutex around the counter and all concurrency. The counter, the file updates and YAML::Store's locking are sequential state changes. No second watcher is refused, because the code never checks the count.
- The regular-expression reading of `sub(/#{db}/, '')`. The database directory is removed as a literal string, first occurrence only (`Strings.RemoveFirst`).
- A callback table whose top level is a YAML sequence: `each` would walk it as a list of pairs. Such a table, like any table that is not a mapping, is modelled as raising.
- Watcher.Callback: an uncaught exception ends the event with `aborted`. What happens to the notifier thread after that is not modelled.
- Writes.CreateEmptyYaml: its constant `true` return value is not modelled. The POST route ignores it.
- Writes.CreateIdempotent: idempotence is stated only for fault-free runs. With faults, a later `mkdir_p` can create a directory that an earlier step failed to create, so a second call can still add a document.
- Writes.EnsureNode: a `mkdir_p` that meets a document file is modelled as making no directory at all. Ruby makes the missing directories above the blocking name before it raises. The two differ only when an injected fault already stopped an earlier step from making those directories.
- Writes.CreateMakesLeaf: the leaf document is promised only when nothing stands in the way of the leaf. When a directory has the leaf document's name, or a document file stands where a directory of the path has to go, `create_empty_yaml` logs the exception and writes nothing there (`Writes.CreateBesideDirectory`, `Writes.CreateBlocked`).
- Listing.ListEntries: `Dir.glob` reads the glob metacharacters `*`, `?`, `[`, `]`, `{` and `}` in the request path as a pattern, so `db/a[b]` lists the documents of `db/ab`. The model takes the path literally.
- Listing.ListViews: the glob metacharacters in the configured view directory are likewise taken literally.
- Routes.PostCreate: with a JSON parser older than 2.0, a top-level string body is not JSON and gives 400. The model follows JSON 2, which parses any top-level value.
- Writes.UpdateYaml: PStore's skipping of an unchanged write is not modelled. The store after an update is the same either way.
- Dead branches are not modelled as reachable: `store.nil?` inside both transactions (pita.rb:395, 414), `result.nil?` in the filename route (pita.rb:95), and `data.nil?` in the eachpair route (pita.rb:125). `read_data` and `get_relevantfile` never return nil, and a transaction's store is never nil.
- Resolver.GetRelevantFile: on a non-nil, non-mapping document, `has_key?` raises outside any rescue. This is modelled as 500, and the theorems about the deepest defining file require every document on the path to be a mapping or nil.
- The tests: they make one HTTP request against fixture data.

=== FILE: documents.dfy ===
/** The abstract file system the store lives in, and `load_yaml`. YAML
    parsing itself is not modelled: a file is either unparsable or holds
    a `Value` standing for what the parser would return. */
module Documents {
  import opened Outcomes
  import opened Paths

  /** A YAML or JSON value, simplified: mapping keys are strings only,
      and every number is an `Int`. */
  datatype Value =
    | Nil
    | Bool(b: bool)
    | Int(i: int)
    | Str(s: string)
    | List(items: seq<Value>)
    | Mapping(m: map<string, Value>)

  /** A Ruby Hash of properties: a property document, a resolution. */
  type Doc = map<string, Value>

  /** The top level of a view file or of a JSON request body: a Hash, a
      string, or any other value (a list, a number, `true`, `false`,
      `null`). A Hash keeps its entries in insertion order, which is
      observable: a view's verb is its first key. */
  datatype Parsed = Hash(pairs: seq<(string, Value)>) | Text(s: string) | NotHash

  /** An existing file: its text either does not parse, or parses to `v`
      (the YAML `false`, which is also what an empty file parses to, is
      `Loaded(Bool(false))`). */
  datatype Content<T> = Unparsable | Loaded(v: T)

  /** The database directory tree and the view directory. `dirs` holds the
      directories (the database directory itself is `[]`); `files` the
      document files by location, the document of `d + [n]` being the file
      `n.yaml` in the directory `d`; `views` the view directory's `*.yaml`
      files by name, or `None` when that directory does not exist; and
      `viewDirs` the names `v` for which the view directory holds a
      directory `v.yaml`. */
  datatype Store = Store(
    dirs: set<Path>,
    files: map<Path, Content<Value>>,
    views: Option<map<string, Content<Parsed>>>,
    viewDirs: set<string>)

  /** The directory location that has the same name as the document file
      of `loc`: `d + [n + ".yaml"]` for the document `n.yaml` in `d`. */
  function DocEntry(loc: Path): Path
    requires loc != []
  {
    loc[..|loc| - 1] + [loc[|loc| - 1] + ".yaml"]
  }

  /** The name of directory `p` is taken by a document file: `p` is
      `d + [m]` where `m` is `n.yaml` and `d + [n]` has a document. */
  predicate Occupied(files: map<Path, Content<Value>>, p: Path) {
    p != [] && YamlName(p[|p| - 1]) && p[..|p| - 1] + [Stem(p[|p| - 1])] in files
  }

  /** A document file takes exactly the name of its `DocEntry`. */
  lemma OccupiedByDoc(files: map<Path, Content<Value>>, loc: Path)
    requires loc != []
    ensures Occupied(files, DocEntry(loc)) <==> loc in files
  {
    var e := DocEntry(loc);
    StemOf(loc[|loc| - 1]);
    assert e[..|e| - 1] == loc[..|loc| - 1];
    assert loc[..|loc| - 1] + [loc[|loc| - 1]] == loc;
  }

  /** Writing the document of `d` takes no name but `DocEntry(d)`. */
  lemma OccupiedByNew(files: map<Path, Content<Value>>, d: Path, c: Content<Value>, p: Path)
    requires d != []
    ensures Occupied(files[d := c], p) ==> Occupied(files, p) || p == DocEntry(d)
  {
    if Occupied(files[d := c], p) && !Occupied(files, p) {
      var m := p[|p| - 1];
      assert p[..|p| - 1] + [Stem(m)] == d;
      assert d[..|d| - 1] == p[..|p| - 1] && d[|d| - 1] == Stem(m);
      StemJoin(m);
      assert p == p[..|p| - 1] + [m];
    }
  }

  /** The tree is what a file system can hold: no name is both a
      directory and a document file, in the database tree or in the view
      directory. */
  predicate Consistent(s: Store) {
    && (forall p :: p in s.dirs ==> !Occupied(s.files, p))
    && (forall v :: v in s.viewDirs ==> s.views.Some? && v !in s.views.value)
  }

  /** Why `load_yaml` raised. */
  datatype LoadError = FileNotFound | NotParsable | NotYaml

  /** What `load_yaml` does: return the parsed value, or raise. */
  datatype Load = Read(v: Value) | Raised(why: LoadError)

  /** `load_yaml(filename)`: raises when the file does not exist, when it
      does not parse, and when it parses to `false`; otherwise gives the
      parsed value unchanged. */
  function LoadYaml(files: map<Path, Content<Value>>, loc: Path): (r: Load)
    ensures r == Raised(FileNotFound) <==> loc !in files
    ensures r == Raised(NotParsable) <==> loc in files && files[loc].Unparsable?
    ensures r == Raised(NotYaml) <==> loc in files && files[loc] == Loaded(Bool(false))
    ensures r.Read? ==> loc in files && files[loc] == Loaded(r.v) && r.v != Bool(false)
  {
    if loc !in files then Raised(FileNotFound)
    else match files[loc]
      case Unparsable => Raised(NotParsable)
      case Loaded(v) => if v == Bool(false) then Raised(NotYaml) else Read(v)
  }

  /** `v` is a mapping that has `key`. */
  predicate Defines(v: Value, key: string) {
    v.Mapping? && key in v.m
  }

  /** The Hash a sequence of entries builds when each entry is stored in
      turn: a later entry for the same key replaces the value, so every
      key ends up with the value of its last entry. */
  function ToMap(pairs: seq<(string, Value)>): (m: Doc)
    ensures forall k :: k in m <==> exists i :: 0 <= i < |pairs| && pairs[i].0 == k
    decreases |pairs|
  {
    if pairs == [] then map[]
    else
      var last := pairs[|pairs| - 1];
      var init := ToMap(pairs[..|pairs| - 1]);
      assert forall i :: 0 <= i < |pairs| - 1 ==> pairs[..|pairs| - 1][i] == pairs[i];
      init[last.0 := last.1]
  }

  /** Every key of a Hash built from entries holds its last entry's value. */
  lemma {:induction false} ToMapLastWins(pairs: seq<(string, Value)>, i: nat)
    requires i < |pairs|
    requires forall j :: i < j < |pairs| ==> pairs[j].0 != pairs[i].0
    ensures pairs[i].0 in ToMap(pairs) && ToMap(pairs)[pairs[i].0] == pairs[i].1
    decreases |pairs|
  {
    if i < |pairs| - 1 {
      var init := pairs[..|pairs| - 1];
      assert init[i] == pairs[i];
      ToMapLastWins(init, i);
    }
  }

  /** Entries whose keys differ pairwise. */
  predicate Distinct(h: seq<(string, Value)>) {
    forall i, j :: 0 <= i < j < |h| ==> h[i].0 != h[j].0
  }

  /** The keys of a list of entries. */
  function KeysOf(h: seq<(string, Value)>): set<string>
    decreases |h|
  {
    if h == [] then {} else {h[0].0} + KeysOf(h[1..])
  }

  lemma {:induction false} InKeys(h: seq<(string, Value)>, i: nat)
    requires i < |h|
    ensures h[i].0 in KeysOf(h)
    decreases i
  {
    if i > 0 {
      InKeys(h[1..], i - 1);
    }
  }

  /** No key occurs twice, stated entry by entry. */
  predicate Unique(h: seq<(string, Value)>)
    decreases |h|
  {
    h == [] || (h[0].0 !in KeysOf(h[1..]) && Unique(h[1..]))
  }

  lemma {:induction false} UniqueDistinct(h: seq<(string, Value)>)
    requires Unique(h)
    ensures Distinct(h)
    decreases |h|
  {
    if h != [] {
      var tail := h[1..];
      UniqueDistinct(tail);
      forall i, j | 0 <= i < j < |h|
        ensures h[i].0 != h[j].0
      {
        assert h[j] == tail[j - 1];
        if i == 0 {
          InKeys(tail, j - 1);
        } else {
          assert h[i] == tail[i - 1];
        }
      }
    }
  }

  /** `hash[k] = v` on a Hash kept as its entries in order: an existing
      key keeps its place and takes the new value, a new key goes last. */
  function Assign(h: seq<(string, Value)>, k: string, v: Value): seq<(string, Value)>
    decreases |h|
  {
    if h == [] then [(k, v)]
    else if h[0].0 == k then [(k, v)] + h[1..]
    else [h[0]] + Assign(h[1..], k, v)
  }

  /** Assigning adds `k` to the keys, keeps them unique, and keeps the
      first key in front. */
  lemma {:induction false} AssignKeys(h: seq<(string, Value)>, k: string, v: Value)
    ensures KeysOf(Assign(h, k, v)) == KeysOf(h) + {k}
    ensures Unique(h) ==> Unique(Assign(h, k, v))
    ensures h != [] ==> Assign(h, k, v)[0].0 == h[0].0
    decreases |h|
  {
    var r := Assign(h, k, v);
    if h == [] {
      assert r[1..] == [];
    } else if h[0].0 == k {
      assert r[1..] == h[1..];
    } else {
      AssignKeys(h[1..], k, v);
      assert r[1..] == Assign(h[1..], k, v);
    }
  }

  /** If the entries spell the mapping `m`, the entries after assigning
      spell `m[k := v]`. */
  lemma {:induction false} AssignSpells(h: seq<(string, Value)>, k: string, v: Value, m: Doc)
    requires Unique(h)
    requires forall i :: 0 <= i < |h| ==> h[i].0 in m && m[h[i].0] == h[i].1
    ensures forall i :: 0 <= i < |Assign(h, k, v)| ==>
      Assign(h, k, v)[i].0 in m[k := v] && m[k := v][Assign(h, k, v)[i].0] == Assign(h, k, v)[i].1
    decreases |h|
  {
    var r := Assign(h, k, v);
    if h != [] {
      var tail := h[1..];
      if h[0].0 == k {
        forall i | 0 < i < |r|
          ensures r[i].0 in m[k := v] && m[k := v][r[i].0] == r[i].1
        {
          assert r[i] == h[i] == tail[i - 1];
          InKeys(tail, i - 1);
        }
      } else {
        AssignSpells(tail, k, v, m);
        forall i | 0 < i < |r|
          ensures r[i].0 in m[k := v] && m[k := v][r[i].0] == r[i].1
        {
          assert r[i] == Assign(tail, k, v)[i - 1];
        }
      }
    }
  }

  /** The entries of the Hash that `pairs` builds, in the order `each`
      visits them: one per key, at the place of the key's first entry,
      holding the value of its last. */
  function Entries(pairs: seq<(string, Value)>): (r: seq<(string, Value)>)
    ensures Unique(r) && Distinct(r)
    ensures KeysOf(r) == ToMap(pairs).Keys
    ensures forall i :: 0 <= i < |r| ==> r[i].0 in ToMap(pairs) && ToMap(pairs)[r[i].0] == r[i].1
    ensures pairs != [] ==> r != [] && r[0].0 == pairs[0].0
    ensures FirstOrder(r, pairs)
    decreases |pairs|
  {
    if pairs == [] then []
    else
      var init := pairs[..|pairs| - 1];
      var last := pairs[|pairs| - 1];
      var e := Entries(init);
      SplitLast(pairs);
      EntriesStep(init, last, e);
      EntriesValues(init, last, e);
      KeysOfToMap(init);
      OrderStep(e, init, last);
      Assign(e, last.0, last.1)
  }

  /** One more pair: assigning it to the entries of the pairs before it
      keeps one entry per key, adds the pair's key, and keeps the first
      key in front. */
  lemma EntriesStep(init: seq<(string, Value)>, last: (string, Value), e: seq<(string, Value)>)
    requires Unique(e) && KeysOf(e) == ToMap(init).Keys
    requires init != [] ==> e != [] && e[0].0 == init[0].0
    ensures var r := Assign(e, last.0, last.1);
      && Unique(r) && Distinct(r)
      && KeysOf(r) == ToMap(init + [last]).Keys
      && r != [] && r[0].0 == (init + [last])[0].0
  {
    var pairs := init + [last];
    assert pairs[..|pairs| - 1] == init;
    AssignKeys(e, last.0, last.1);
    UniqueDistinct(Assign(e, last.0, last.1));
  }

  /** One more pair: the entries after assigning it hold the values of
      the Hash of all the pairs. */
  lemma EntriesValues(init: seq<(string, Value)>, last: (string, Value), e: seq<(string, Value)>)
    requires Unique(e)
    requires forall i :: 0 <= i < |e| ==> e[i].0 in ToMap(init) && ToMap(init)[e[i].0] == e[i].1
    ensures var r := Assign(e, last.0, last.1);
      forall i :: 0 <= i < |r| ==> r[i].0 in ToMap(init + [last]) && ToMap(init + [last])[r[i].0] == r[i].1
  {
    var pairs := init + [last];
    assert pairs[..|pairs| - 1] == init;
    assert ToMap(pairs) == ToMap(init)[last.0 := last.1];
    AssignSpells(e, last.0, last.1, ToMap(init));
  }

  lemma SplitLast(pairs: seq<(string, Value)>)
    requires pairs != []
    ensures pairs[..|pairs| - 1] + [pairs[|pairs| - 1]] == pairs
  {
  }

  /** Where the key `x` first sits among the entries; `|h|` when no entry
      has it. */
  function Position(h: seq<(string, Value)>, x: string): (i: nat)
    ensures i <= |h|
    ensures i < |h| <==> x in KeysOf(h)
    ensures i < |h| ==> h[i].0 == x
    ensures forall j :: 0 <= j < i ==> h[j].0 != x
    decreases |h|
  {
    if h == [] then 0
    else if h[0].0 == x then 0
    else
      var i := 1 + Position(h[1..], x);
      assert forall j :: 0 < j < i ==> h[j] == h[1..][j - 1];
      i
  }

  /** The entries `h` come in the order their keys first appear in
      `pairs`. */
  predicate FirstOrder(h: seq<(string, Value)>, pairs: seq<(string, Value)>) {
    forall i, j :: 0 <= i < j < |h| ==> Position(pairs, h[i].0) < Position(pairs, h[j].0)
  }

  /** The keys of the entries are the keys of the Hash they build. */
  lemma KeysOfToMap(h: seq<(string, Value)>)
    ensures KeysOf(h) == ToMap(h).Keys
  {
    forall x | x in KeysOf(h)
      ensures x in ToMap(h)
    {
      var i := Position(h, x);
      assert h[i].0 == x;
    }
    forall x | x in ToMap(h)
      ensures x in KeysOf(h)
    {
      var i :| 0 <= i < |h| && h[i].0 == x;
      InKeys(h, i);
    }
  }

  /** An entry added at the end moves no key's first position, and is the
      first position of a key new to the entries. */
  lemma {:induction false} PositionSnoc(h: seq<(string, Value)>, e: (string, Value), x: string)
    ensures x in KeysOf(h) ==> Position(h + [e], x) == Position(h, x)
    ensures x !in KeysOf(h) && x == e.0 ==> Position(h + [e], x) == |h|
    decreases |h|
  {
    if h != [] {
      assert (h + [e])[0] == h[0] && (h + [e])[1..] == h[1..] + [e];
      PositionSnoc(h[1..], e, x);
    } else {
      assert (h + [e])[0] == e;
    }
  }

  /** Assigning an existing key keeps every entry's key in place; a new
      key is appended. */
  lemma {:induction false} AssignShape(h: seq<(string, Value)>, k: string, v: Value)
    ensures k in KeysOf(h) ==>
      |Assign(h, k, v)| == |h| && forall i :: 0 <= i < |h| ==> Assign(h, k, v)[i].0 == h[i].0
    ensures k !in KeysOf(h) ==> Assign(h, k, v) == h + [(k, v)]
    decreases |h|
  {
    if h != [] && h[0].0 != k {
      AssignShape(h[1..], k, v);
      var r := Assign(h, k, v);
      assert r == [h[0]] + Assign(h[1..], k, v);
      if k !in KeysOf(h) {
        assert [h[0]] + (h[1..] + [(k, v)]) == h + [(k, v)];
      } else {
        assert forall i :: 0 < i < |h| ==> r[i] == Assign(h[1..], k, v)[i - 1] && h[i] == h[1..][i - 1];
      }
    }
  }

  /** One more entry, stored with `Assign`, keeps the entries in the order
      of first appearance. */
  lemma OrderStep(e: seq<(string, Value)>, init: seq<(string, Value)>, last: (string, Value))
    requires FirstOrder(e, init) && KeysOf(e) == KeysOf(init)
    ensures FirstOrder(Assign(e, last.0, last.1), init + [last])
  {
    var r := Assign(e, last.0, last.1);
    var pairs := init + [last];
    AssignShape(e, last.0, last.1);
    forall i | 0 <= i < |e|
      ensures Position(pairs, r[i].0) == Position(init, e[i].0) < |init|
    {
      InKeys(e, i);
      PositionSnoc(init, last, e[i].0);
    }
    if last.0 !in KeysOf(e) {
      PositionSnoc(init, last, last.0);
      assert r[|e|] == last;
    }
  }
}

=== FILE: listing.dfy ===
/** Node listing: `list_entries`, which describes what lies under a path,
    and `list_views`, which describes the stored views. */
module Listing {
  import opened Outcomes
  import opened Paths
  import opened Documents

  datatype Kind = Directory | File | View

  /** One finding of a listing: its `name`, `type` and `url`. */
  datatype Entry = Entry(name: string, kind: Kind, url: string)

  /** A directory lists its documents; a path that is only a document
      lists itself, as one entry rather than a list of them. */
  datatype Listing = Children(entries: set<Entry>) | Single(entry: Entry)

  /** `uri(addr)`: the address prefixed with the request's base URL. */
  function Uri(base: string, addr: string): string {
    base + addr
  }

  /** The names `Dir.glob(File.join(dir, '*.yaml'))` reports, each with its
      ".yaml" removed. The pattern matches every entry of the directory
      whose name ends in ".yaml", so a directory `n.yaml` is reported as
      `n` just as the document `n.yaml` is. */
  function DocumentNames(s: Store, dir: Path): (names: set<string>)
    ensures forall n :: n in names <==> Visible(n) && (dir + [n] in s.files || dir + [n + ".yaml"] in s.dirs)
  {
    var docs := set loc | loc in s.files && |loc| == |dir| + 1 && loc[..|dir|] == dir && Visible(loc[|dir|]) :: loc[|dir|];
    var subdirs := set p | p in s.dirs && |p| == |dir| + 1 && p[..|dir|] == dir && YamlName(p[|dir|]) && Visible(Stem(p[|dir|])) :: Stem(p[|dir|]);
    assert forall n :: Visible(n) && dir + [n] in s.files ==> (dir + [n])[..|dir|] == dir && (dir + [n])[|dir|] == n;
    assert forall loc :: |loc| == |dir| + 1 && loc[..|dir|] == dir ==> loc == dir + [loc[|dir|]];
    forall n | Visible(n) && dir + [n + ".yaml"] in s.dirs
      ensures n in subdirs
    {
      var p := dir + [n + ".yaml"];
      assert p[..|dir|] == dir && p[|dir|] == n + ".yaml";
      StemOf(n);
    }
    forall p | p in s.dirs && |p| == |dir| + 1 && p[..|dir|] == dir && YamlName(p[|dir|])
      ensures dir + [Stem(p[|dir|]) + ".yaml"] == p
    {
      StemJoin(p[|dir|]);
    }
    docs + subdirs
  }

  function ChildEntry(s: Store, base: string, path: string, name: string): Entry {
    Entry(
      name,
      if DirKey(path) + [name] in s.dirs then Directory else File,
      Uri(base, Join(Join("properties", path), name)))
  }

  /** The findings for the documents `names` of the directory of `path`:
      each entry is the one its name determines. */
  function ChildEntries(s: Store, base: string, path: string, names: set<string>): (es: set<Entry>)
    ensures forall n :: n in names ==> ChildEntry(s, base, path, n) in es
    ensures forall e :: e in es ==> e.name in names && e == ChildEntry(s, base, path, e.name)
  {
    set n | n in names :: ChildEntry(s, base, path, n)
  }

  /** `list_entries(path)` for the database directory `db` and a request
      whose base URL is `base`. A directory takes precedence over a
      document of the same name: it gives one entry per document it holds,
      typed Directory exactly when a directory of the same name sits next
      to the document. Otherwise an existing document gives a single File
      entry pointing at its `eachpair` view; otherwise the answer is 404. */
  function ListEntries(s: Store, db: string, base: string, path: string): (r: Result<Listing>)
    ensures r.Ok? && r.value.Children? <==> DirKey(path) in s.dirs
    ensures r.Ok? && r.value.Single? <==> DirKey(path) !in s.dirs && LeafKey(path) in s.files
    ensures r.Err? ==> r.code == NotFound
    ensures r.Ok? && r.value.Children? ==>
      forall n :: n in DocumentNames(s, DirKey(path)) <==> exists e :: e in r.value.entries && e.name == n
    ensures r.Ok? && r.value.Children? ==>
      forall e, e' :: e in r.value.entries && e' in r.value.entries && e.name == e'.name ==> e == e'
    ensures r.Ok? && r.value.Children? ==> forall e :: e in r.value.entries ==>
      && (e.kind == Directory <==> DirKey(path) + [e.name] in s.dirs)
      && e.kind != View
      && e.url == Uri(base, Join(Join("properties", path), e.name))
    ensures r.Ok? && r.value.Single? ==>
      && r.value.entry.kind == File
      && r.value.entry.url == Uri(base, Join(Join("properties", path), "eachpair"))
  {
    var dir := DirKey(path);
    if dir in s.dirs then
      var es := ChildEntries(s, base, path, DocumentNames(s, dir));
      assert forall n :: n in DocumentNames(s, dir) ==> ChildEntry(s, base, path, n).name == n;
      Ok(Children(es))
    else if LeafKey(path) in s.files then
      Ok(Single(Entry(
        Basename(Join(db, path), ".yaml"),
        File,
        Uri(base, Join(Join("properties", path), "eachpair")))))
    else Err(NotFound)
  }

  /** For a path without a leading or trailing '/', an entry's URL is
      `properties/<path>/<name>` under the base URL. */
  lemma EntryUrl(base: string, path: string, name: string)
    requires path != "" && path[0] != '/' && path[|path| - 1] != '/'
    requires name != "" && name[0] != '/'
    ensures Join(Join("properties", path), name) == "properties/" + path + "/" + name
  {
    JoinPlain("properties", path);
    JoinPlain("properties/" + path, name);
  }

  function ViewEntry(base: string, name: string): Entry {
    Entry(name, View, Uri(base, Join("view", name)))
  }

  function ViewEntries(base: string, names: set<string>): (es: set<Entry>)
    ensures forall n :: n in names ==> ViewEntry(base, n) in es
    ensures forall e :: e in es ==> e.name in names && e == ViewEntry(base, e.name)
  {
    set n | n in names :: ViewEntry(base, n)
  }

  /** `list_views`: one View entry per `*.yaml` entry of the view
      directory, a file or a directory alike, with the URL `view/<name>`,
      or 404 when that directory does not exist. */
  function ListViews(s: Store, base: string): (r: Result<set<Entry>>)
    ensures r.Ok? <==> s.views.Some?
    ensures r.Err? ==> r.code == NotFound
    ensures r.Ok? ==> forall n :: ((n in s.views.value || n in s.viewDirs) && Visible(n)) <==> exists e :: e in r.value && e.name == n
    ensures r.Ok? ==> forall e :: e in r.value ==> e.kind == View && e.url == Uri(base, Join("view", e.name))
  {
    match s.views
    case None => Err(NotFound)
    case Some(views) =>
      var names := (set n | n in views && Visible(n)) + (set n | n in s.viewDirs && Visible(n));
      assert forall n :: n in names ==> ViewEntry(base, n).name == n;
      assert forall n :: (n in views || n in s.viewDirs) && Visible(n) ==> n in names;
      Ok(ViewEntries(base, names))
  }
}

=== FILE: outcomes.dfy ===
/** Outcomes shared by every part of the store: an optional value, and the
    result of a request, which either carries a value or the HTTP status the
    request was halted with. */
module Outcomes {

  datatype Option<+T> = None | Some(value: T)

  /** `Err(code)` stands for a request that `return_error` redirected with
      `code`, or for an exception nothing rescues, which Sinatra answers
      with `InternalError`. */
  datatype Result<+T> = Ok(value: T) | Err(code: int) {

    predicate IsFailure() {
      Err?
    }

    function PropagateFailure<U>(): Result<U>
      requires Err?
    {
      Err(code)
    }

    function Extract(): T
      requires Ok?
    {
      value
    }
  }

  const BadRequest := 400
  const NotFound := 404
  const NotAcceptable := 406
  const InternalError := 500
}

=== FILE: paths.dfy ===
/** Names in the database directory. A location is the list of components
    of a name relative to that directory: the document file `a/b.yaml` is
    the location ["a", "b"], the directory `a/b` is ["a", "b"] as well, and
    the oddly named file `a/.yaml` is ["a", ""]. Also the Ruby `File`
    helpers (`join`, `basename`, `extname`) that the routes apply to the
    names they are given. */
module Paths {
  import opened Outcomes
  import opened Strings

  type Path = seq<string>

  /** `path.split('/')`: the steps `read_data` and friends walk. */
  function Steps(path: string): seq<string> {
    Split(path, '/')
  }

  /** The components that remain when the file system reads a name:
      empty components (from "a//b", a leading or a trailing '/') vanish. */
  function NonEmpty(fs: seq<string>): (r: seq<string>)
    ensures |r| <= |fs|
    ensures forall i :: 0 <= i < |r| ==> r[i] != ""
    ensures (forall i :: 0 <= i < |fs| ==> fs[i] != "") ==> r == fs
    decreases |fs|
  {
    if fs == [] then []
    else (if fs[0] == "" then [] else [fs[0]]) + NonEmpty(fs[1..])
  }

  lemma {:induction false} NonEmptyAppend(a: seq<string>, b: seq<string>)
    ensures NonEmpty(a + b) == NonEmpty(a) + NonEmpty(b)
    decreases |a|
  {
    if a == [] {
      assert a + b == b;
    } else {
      var h := if a[0] == "" then [] else [a[0]];
      assert a + b == [a[0]] + (a[1..] + b);
      assert a == [a[0]] + a[1..];
      NonEmptyCons(a[0], a[1..] + b);
      NonEmptyCons(a[0], a[1..]);
      NonEmptyAppend(a[1..], b);
      Regroup(h, NonEmpty(a[1..]), NonEmpty(b));
    }
  }

  lemma Regroup(x: seq<string>, y: seq<string>, z: seq<string>)
    ensures x + (y + z) == (x + y) + z
  {
  }

  lemma NonEmptyCons(x: string, rest: seq<string>)
    ensures NonEmpty([x] + rest) == (if x == "" then [] else [x]) + NonEmpty(rest)
  {
    assert ([x] + rest)[1..] == rest;
  }

  lemma {:induction false} NonEmptyOfBlanks(fs: seq<string>)
    requires forall i :: 0 <= i < |fs| ==> fs[i] == ""
    ensures NonEmpty(fs) == []
    decreases |fs|
  {
    if fs != [] {
      assert forall i :: 0 <= i < |fs| - 1 ==> fs[1..][i] == fs[i + 1];
      NonEmptyOfBlanks(fs[1..]);
    }
  }

  /** The directory `File.join(db, path)`. */
  function DirKey(path: string): Path {
    NonEmpty(Fields(path, '/'))
  }

  /** The non-empty steps of a path are the components of its directory:
      the trailing empty fields `split` drops are empty anyway. */
  lemma DirKeyOfSteps(path: string)
    ensures NonEmpty(Steps(path)) == DirKey(path)
  {
    var fs := Fields(path, '/');
    var r := Steps(path);
    assert fs == r + fs[|r|..];
    NonEmptyAppend(r, fs[|r|..]);
    NonEmptyOfBlanks(fs[|r|..]);
    assert NonEmpty(r) + [] == NonEmpty(r);
  }

  /** The file `File.join(db, path + '.yaml')`, which is also
      `File.join(db, path) + '.yaml'`: the last component names the file,
      so the path "a/" names the file `a/.yaml`. */
  function LeafKey(path: string): Path {
    var fs := Fields(path, '/');
    NonEmpty(fs[..|fs| - 1]) + [fs[|fs| - 1]]
  }

  /** The directory a walk is in after `File.join(dir, step)`: an empty
      step leaves it where it was. */
  function Descend(dir: Path, step: string): Path {
    if step == "" then dir else dir + [step]
  }

  /** The files a walk from `dir` over `steps` reads, one per step: the
      step joined to the directory reached so far, plus ".yaml". An empty
      step therefore reads the file ".yaml" inside the current directory. */
  function Locations(dir: Path, steps: seq<string>): (r: seq<Path>)
    ensures |r| == |steps|
    decreases |steps|
  {
    if steps == [] then []
    else [dir + [steps[0]]] + Locations(Descend(dir, steps[0]), steps[1..])
  }

  /** The files `read_data(path)` and `get_relevantfile(path, _)` read, from
      the shallowest to the deepest. */
  function Chain(path: string): (r: seq<Path>)
    ensures |r| == |Steps(path)|
  {
    Locations([], Steps(path))
  }

  /** A path without empty components: no leading, trailing or doubled '/'. */
  predicate Clean(path: string) {
    path != "" && forall i :: 0 <= i < |Fields(path, '/')| ==> Fields(path, '/')[i] != ""
  }

  /** When no step is empty, the i-th file read is the (i+1)-component
      prefix of the steps below `dir`. */
  lemma {:induction false} LocationsOfNonEmptySteps(dir: Path, steps: seq<string>, i: nat)
    requires forall j :: 0 <= j < |steps| ==> steps[j] != ""
    requires i < |steps|
    ensures Locations(dir, steps)[i] == dir + steps[..i + 1]
    decreases |steps|
  {
    if i > 0 {
      LocationsOfNonEmptySteps(dir + [steps[0]], steps[1..], i - 1);
      assert dir + [steps[0]] + steps[1..][..i] == dir + steps[..i + 1];
    }
  }

  /** For a clean path, the chain is the list of its prefixes and ends at
      the very file `LeafKey` names, and that file's directory is the
      `DirKey` of the path. */
  lemma CleanChain(path: string)
    requires Clean(path)
    ensures Steps(path) == Fields(path, '/')
    ensures DirKey(path) == Fields(path, '/')
    ensures LeafKey(path) == Fields(path, '/')
    ensures forall i :: 0 <= i < |Chain(path)| ==> Chain(path)[i] == Steps(path)[..i + 1]
    ensures Chain(path)[|Chain(path)| - 1] == LeafKey(path)
  {
    var fs := Fields(path, '/');
    assert fs[|fs| - 1] != "";
    assert Steps(path) == fs;
    assert fs[..|fs| - 1] + [fs[|fs| - 1]] == fs;
    forall i | 0 <= i < |fs|
      ensures Chain(path)[i] == fs[..i + 1]
    {
      LocationsOfNonEmptySteps([], fs, i);
    }
    assert fs[..|fs|] == fs;
  }

  /** `File.join(a, b)`. At the seam, a '/' that starts `b` takes the
      place of the separators that end `a`; otherwise separators that end
      `a` stay as they are, and only when there are none is a '/' put in.
      Nothing else of either part changes. */
  function Join(a: string, b: string): (r: string)
    ensures |b| <= |r| && r[|r| - |b|..] == b
    ensures var head := TrimTrailing(a, '/');
      && |head| + |b| <= |r| && r[..|head|] == head
      && forall i :: |head| <= i < |r| - |b| ==> r[i] == '/'
    ensures b != "" && b[0] == '/' ==> |r| == |TrimTrailing(a, '/')| + |b|
    ensures (b == "" || b[0] != '/') ==>
      |r| == |a| + |b| + (if a != "" && a[|a| - 1] == '/' then 0 else 1)
  {
    if b != "" && b[0] == '/' then TrimTrailing(a, '/') + b
    else if a != "" && a[|a| - 1] == '/' then a + b
    else a + "/" + b
  }

  /** With no separator at the seam, `File.join` puts exactly one there. */
  lemma JoinPlain(a: string, b: string)
    requires a != "" && a[|a| - 1] != '/'
    requires b == "" || b[0] != '/'
    ensures Join(a, b) == a + "/" + b
  {
    var r := Join(a, b);
    assert |r| == |a| + 1 + |b|;
    assert TrimTrailing(a, '/') == a;
    assert r[..|a|] == a && r[|a|] == '/' && r[|a| + 1..] == b;
    assert r == r[..|a|] + [r[|a|]] + r[|a| + 1..];
  }

  /** Separator runs at the seam are not squeezed: the run that ends the
      left part, or the one that starts the right part, survives whole. */
  lemma JoinKeepsRuns()
    ensures Join("usr//", "bin") == "usr//bin"
    ensures Join("usr/", "//bin") == "usr//bin"
    ensures Join("usr", "bin") == "usr/bin"
  {
    assert TrimTrailing("usr/", '/') == "usr";
  }

  /** `c` ends `t`, holds no '/', and is either all of `t` or preceded by
      a '/': the last component of `t`. */
  predicate IsLastPart(t: string, c: string) {
    && |c| <= |t| && t[|t| - |c|..] == c && Free(c, '/')
    && (|c| == |t| || t[|t| - |c| - 1] == '/')
  }

  /** The last component of `s` once trailing separators are dropped:
      the text after the last '/' that remains. */
  function LastComponent(s: string): (c: string)
    ensures IsLastPart(TrimTrailing(s, '/'), c)
    ensures TrimTrailing(s, '/') != "" ==> c != ""
  {
    var t := TrimTrailing(s, '/');
    match LastIndexOf(t, '/')
    case None => t
    case Some(i) => t[i + 1..]
  }

  /** `suffix` is a proper ending of `c`, which `File.basename` removes. */
  predicate Strips(c: string, suffix: string) {
    suffix != "" && |suffix| < |c| && c[|c| - |suffix|..] == suffix
  }

  /** `File.basename(s, suffix)`: "" for "", "/" for a name made only of
      separators, and otherwise the last component, with `suffix` removed
      exactly when the component ends in it and is longer than it. */
  function Basename(s: string, suffix: string): (r: string)
    ensures s == "" ==> r == ""
    ensures s != "" && TrimTrailing(s, '/') == "" ==> r == "/"
    ensures TrimTrailing(s, '/') != "" ==>
      && (r == LastComponent(s) <==> !Strips(LastComponent(s), suffix))
      && (r != LastComponent(s) ==> r != "" && r + suffix == LastComponent(s))
  {
    if TrimTrailing(s, '/') == [] then (if s == [] then "" else "/")
    else
      var c := LastComponent(s);
      if Strips(c, suffix) then
        SplitAt(c, |c| - |suffix|);
        c[..|c| - |suffix|]
      else c
  }

  lemma SplitAt(c: string, k: nat)
    requires k <= |c|
    ensures c[..k] + c[k..] == c
  {
  }

  predicate EndsWithDot(t: string) { t != "" && t[|t| - 1] == '.' }

  /** `r` ends `rest`, after at least one other character, and is a '.'
      followed by at least one character that is not a '.'. */
  predicate IsExtension(rest: string, r: string) {
    2 <= |r| < |rest| && rest[|rest| - |r|..] == r && r[0] == '.' && Free(r[1..], '.')
  }

  /** The extension of a component whose leading dots are gone: the text
      from its last '.' on, unless there is none or it ends the text. */
  function Extension(rest: string): (r: string)
    requires rest == "" || rest[0] != '.'
    ensures r == "" <==> Free(rest, '.') || EndsWithDot(rest)
    ensures r != "" ==> IsExtension(rest, r)
  {
    match LastIndexOf(rest, '.')
    case None => ""
    case Some(i) =>
      if i == |rest| - 1 then ""
      else
        var r := rest[i..];
        assert rest[|rest| - 1] == rest[i + 1..][|rest| - 1 - (i + 1)];
        assert r[1..] == rest[i + 1..];
        assert !Free(rest, '.') by {
          assert rest[i] == '.';
        }
        r
  }

  /** `File.extname(s)` as Ruby before 2.7 computes it outside Windows:
      in the last component, past its leading dots, the text from the last
      '.' on; "" when there is no such '.', and also when that '.' is the
      last character. */
  function ExtName(s: string): (r: string)
    ensures r == "" <==> Free(TrimLeading(LastComponent(s), '.'), '.') || EndsWithDot(TrimLeading(LastComponent(s), '.'))
    ensures r != "" ==> IsExtension(TrimLeading(LastComponent(s), '.'), r)
  {
    var rest := TrimLeading(LastComponent(s), '.');
    assert rest == "" || rest[0] != '.';
    var r := Extension(rest);
    r
  }

  /** A name without '/' is its own last component. */
  lemma OwnComponent(k: string)
    requires k != "" && Free(k, '/')
    ensures LastComponent(k) == k
  {
    Untouched(k, '/');
  }

  /** The basename of a name without '/' is the name, less the suffix
      when the name properly ends in it. */
  lemma BasenameOfFree(v: string, suffix: string)
    requires v != "" && Free(v, '/')
    ensures Basename(v, suffix) == if Strips(v, suffix) then v[..|v| - |suffix|] else v
    ensures Basename(v, suffix) != "/"
  {
    Untouched(v, '/');
    OwnComponent(v);
  }

  /** A name without '.' or '/' has no extension and is its own basename. */
  lemma PlainName(k: string)
    requires k != "" && Free(k, '.') && Free(k, '/')
    ensures ExtName(k) == ""
    ensures Basename(k, "") == k
  {
    OwnComponent(k);
    Untouched(k, '.');
  }

  /** A name that ends in '.' has no extension, whatever dots it holds,
      so its basename is the whole name. */
  lemma DottedName(k: string)
    requires k != "" && Free(k, '/') && k[|k| - 1] == '.'
    ensures ExtName(k) == ""
    ensures Basename(k, "") == k
  {
    OwnComponent(k);
    var rest := TrimLeading(k, '.');
    if rest != "" {
      assert rest[|rest| - 1] == k[|k| - 1];
    }
  }

  /** "k.json" has the extension ".json" and the basename "k". */
  lemma JsonName(k: string)
    requires k != "" && Free(k, '.') && Free(k, '/')
    ensures ExtName(k + ".json") == ".json"
    ensures Basename(k + ".json", ".json") == k
  {
    var s := k + ".json";
    assert Free(s, '/');
    OwnComponent(s);
    assert s[0] == k[0];
    assert TrimLeading(s, '.') == s;
    assert s[|k|] == '.' && s[|s| - 1] == 'n';
    assert forall j :: 0 <= j < |s| && s[j] == '.' ==> j == |k|;
    var r := ExtName(s);
    assert r != "";
    assert s[|s| - |r|] == r[0];
    assert s[|k|..] == ".json";
    assert s[|s| - 5..] == ".json";
    assert s[..|s| - 5] == k;
  }

  /** `m` ends in ".yaml". */
  predicate YamlName(m: string) {
    5 <= |m| && m[|m| - 5..] == ".yaml"
  }

  /** `m` without its ".yaml". */
  function Stem(m: string): string
    requires YamlName(m)
  {
    m[..|m| - 5]
  }

  lemma StemOf(n: string)
    ensures YamlName(n + ".yaml") && Stem(n + ".yaml") == n
  {
    var m := n + ".yaml";
    assert m[|m| - 5..] == ".yaml";
    assert m[..|m| - 5] == n;
  }

  lemma StemJoin(m: string)
    requires YamlName(m)
    ensures Stem(m) + ".yaml" == m
  {
    assert m[..|m| - 5] + m[|m| - 5..] == m;
  }

  /** What `Dir.glob('*.yaml')` reports for a document named `name`: the
      pattern does not match file names that start with '.', and the
      file `.yaml` is one of those. */
  predicate Visible(name: string) {
    name != "" && name[0] != '.'
  }
}

=== FILE: resolver.dfy ===
/** Path resolution: `read_data`, which walks a path's steps and merges
    the documents it meets, and `get_relevantfile`, which walks the same
    steps looking for the deepest document that defines a key. */
module Resolver {
  import opened Outcomes
  import opened Paths
  import opened Documents
  import Strings

  /** The walk `read_data` performs over the files `locs`, with the
      properties gathered so far in `acc`. Any file that fails to load ends
      the request with 404; a mapping is merged in (or, under
      `disableMerge`, replaces what was gathered); any other value is
      skipped. */
  function ReadSteps(files: map<Path, Content<Value>>, locs: seq<Path>, acc: Doc, disableMerge: bool): (r: Result<Doc>)
    ensures r.Err? ==> r.code == NotFound
    decreases |locs|
  {
    if locs == [] then Ok(acc)
    else match LoadYaml(files, locs[0])
      case Raised(_) => Err(NotFound)
      case Read(v) =>
        var next := if !v.Mapping? then acc else if disableMerge then v.m else acc + v.m;
        ReadSteps(files, locs[1..], next, disableMerge)
  }

  /** `read_data(path, :disable_merge => disableMerge)`. */
  function ReadData(s: Store, path: string, disableMerge: bool): (r: Result<Doc>)
    ensures r.Err? ==> r.code == NotFound
  {
    ReadSteps(s.files, Chain(path), map[], disableMerge)
  }

  /** Every file of `locs` loads. */
  predicate AllLoad(files: map<Path, Content<Value>>, locs: seq<Path>) {
    forall i :: 0 <= i < |locs| ==> LoadYaml(files, locs[i]).Read?
  }

  /** The values the files of `locs` load to. */
  function Values(files: map<Path, Content<Value>>, locs: seq<Path>): (vs: seq<Value>)
    requires AllLoad(files, locs)
    ensures |vs| == |locs|
    ensures forall i :: 0 <= i < |locs| ==> LoadYaml(files, locs[i]) == Read(vs[i])
  {
    seq(|locs|, i requires 0 <= i < |locs| => LoadYaml(files, locs[i]).v)
  }

  /** The shallow merge of the mappings among `vs`, each one overriding
      the keys of those before it. */
  function Merged(vs: seq<Value>): (r: Doc)
    ensures forall k :: k in r <==> exists i :: 0 <= i < |vs| && Defines(vs[i], k)
    decreases |vs|
  {
    if vs == [] then map[]
    else
      var rest := Merged(vs[1..]);
      assert forall i :: 1 <= i < |vs| ==> vs[1..][i - 1] == vs[i];
      (if vs[0].Mapping? then vs[0].m else map[]) + rest
  }

  /** In a merge, a key holds the value of the last mapping that has it. */
  lemma {:induction false} MergedLastWins(vs: seq<Value>, k: string, i: nat)
    requires i < |vs| && Defines(vs[i], k)
    requires forall j :: i < j < |vs| ==> !Defines(vs[j], k)
    ensures k in Merged(vs) && Merged(vs)[k] == vs[i].m[k]
    decreases |vs|
  {
    var rest := vs[1..];
    var own: Doc := if vs[0].Mapping? then vs[0].m else map[];
    assert Merged(vs) == own + Merged(rest);
    if i == 0 {
      forall j | 0 <= j < |rest|
        ensures !Defines(rest[j], k)
      {
        assert rest[j] == vs[j + 1];
      }
      assert k !in Merged(rest);
    } else {
      assert rest[i - 1] == vs[i];
      forall j | i - 1 < j < |rest|
        ensures !Defines(rest[j], k)
      {
        assert rest[j] == vs[j + 1];
      }
      MergedLastWins(rest, k, i - 1);
    }
  }

  lemma AllLoadCons(files: map<Path, Content<Value>>, locs: seq<Path>)
    requires locs != []
    ensures AllLoad(files, locs) <==> LoadYaml(files, locs[0]).Read? && AllLoad(files, locs[1..])
    ensures AllLoad(files, locs) ==> Values(files, locs) == [LoadYaml(files, locs[0]).v] + Values(files, locs[1..])
  {
    if AllLoad(files, locs[1..]) && LoadYaml(files, locs[0]).Read? {
      forall i | 0 <= i < |locs|
        ensures LoadYaml(files, locs[i]).Read?
      {
        if i > 0 {
          assert locs[1..][i - 1] == locs[i];
        }
      }
    }
  }

  lemma EmptyUnion(m: Doc)
    ensures map[] + m == m
  {
  }

  lemma UnionAssoc(a: Doc, b: Doc, c: Doc)
    ensures (a + b) + c == a + (b + c)
  {
  }

  lemma {:induction false} ReadStepsMerges(files: map<Path, Content<Value>>, locs: seq<Path>, acc: Doc)
    ensures ReadSteps(files, locs, acc, false).Ok? <==> AllLoad(files, locs)
    ensures AllLoad(files, locs) ==> ReadSteps(files, locs, acc, false) == Ok(acc + Merged(Values(files, locs)))
    decreases |locs|
  {
    if locs == [] {
      assert acc + map[] == acc;
    } else {
      AllLoadCons(files, locs);
      if LoadYaml(files, locs[0]).Read? {
        var v := LoadYaml(files, locs[0]).v;
        var own: Doc := if v.Mapping? then v.m else map[];
        var next := if !v.Mapping? then acc else acc + v.m;
        assert next == acc + own;
        assert ReadSteps(files, locs, acc, false) == ReadSteps(files, locs[1..], next, false);
        ReadStepsMerges(files, locs[1..], next);
        if AllLoad(files, locs) {
          var vs := Values(files, locs);
          assert vs[1..] == Values(files, locs[1..]);
          assert Merged(vs) == own + Merged(vs[1..]);
          UnionAssoc(acc, own, Merged(vs[1..]));
        }
      }
    }
  }

  /** `read_data` merges: it succeeds exactly when every file on the path
      loads, and then its result is the left-to-right shallow merge of the
      mapping-valued documents, a key being present exactly when some
      document on the path defines it. */
  lemma ReadDataIsMerge(s: Store, path: string)
    ensures ReadData(s, path, false).Ok? <==> AllLoad(s.files, Chain(path))
    ensures AllLoad(s.files, Chain(path)) ==>
      ReadData(s, path, false) == Ok(Merged(Values(s.files, Chain(path))))
  {
    ReadStepsMerges(s.files, Chain(path), map[]);
    if AllLoad(s.files, Chain(path)) {
      EmptyUnion(Merged(Values(s.files, Chain(path))));
    }
  }

  /** The deepest document that defines a key decides its resolved value,
      whatever shallower documents say. */
  lemma ReadDataDeepestWins(s: Store, path: string, key: string, i: nat)
    requires AllLoad(s.files, Chain(path))
    requires i < |Chain(path)| && Defines(Values(s.files, Chain(path))[i], key)
    requires forall j :: i < j < |Chain(path)| ==> !Defines(Values(s.files, Chain(path))[j], key)
    ensures ReadData(s, path, false).Ok?
    ensures key in ReadData(s, path, false).value
    ensures ReadData(s, path, false).value[key] == Values(s.files, Chain(path))[i].m[key]
  {
    ReadDataIsMerge(s, path);
    MergedLastWins(Values(s.files, Chain(path)), key, i);
  }

  /** The position of the last mapping in `vs`. */
  function LastMapping(vs: seq<Value>): (r: Option<nat>)
    ensures r.Some? ==> r.value < |vs| && vs[r.value].Mapping?
    ensures r.Some? ==> forall j :: r.value < j < |vs| ==> !vs[j].Mapping?
    ensures r.None? ==> forall j :: 0 <= j < |vs| ==> !vs[j].Mapping?
    decreases |vs|
  {
    if vs == [] then None
    else
      assert forall j :: 1 <= j < |vs| ==> vs[1..][j - 1] == vs[j];
      match LastMapping(vs[1..])
      case Some(j) => Some(j + 1)
      case None => if vs[0].Mapping? then Some(0) else None
  }

  lemma {:induction false} ReadStepsReplaces(files: map<Path, Content<Value>>, locs: seq<Path>, acc: Doc)
    requires AllLoad(files, locs)
    ensures ReadSteps(files, locs, acc, true) == Ok(
      match LastMapping(Values(files, locs))
      case None => acc
      case Some(i) => Values(files, locs)[i].m)
    decreases |locs|
  {
    if locs != [] {
      AllLoadCons(files, locs);
      var vs := Values(files, locs);
      var v := vs[0];
      ReadStepsReplaces(files, locs[1..], if v.Mapping? then v.m else acc);
      assert vs[1..] == Values(files, locs[1..]);
    }
  }

  /** Under `disable_merge` the result is the last mapping-valued document
      on the path (not necessarily the deepest document, as documents that
      are not mappings are skipped), or the empty mapping when there is
      none; a file that fails to load still ends the request with 404. */
  lemma ReadDataReplaces(s: Store, path: string)
    ensures ReadData(s, path, true).Ok? <==> AllLoad(s.files, Chain(path))
    ensures AllLoad(s.files, Chain(path)) ==> ReadData(s, path, true) == Ok(
      match LastMapping(Values(s.files, Chain(path)))
      case None => map[]
      case Some(i) => Values(s.files, Chain(path))[i].m)
  {
    if AllLoad(s.files, Chain(path)) {
      ReadStepsReplaces(s.files, Chain(path), map[]);
    } else {
      ReadStepsFailure(s.files, Chain(path), map[], true);
    }
  }

  lemma {:induction false} ReadStepsFailure(files: map<Path, Content<Value>>, locs: seq<Path>, acc: Doc, disableMerge: bool)
    requires !AllLoad(files, locs)
    ensures ReadSteps(files, locs, acc, disableMerge) == Err(NotFound)
    decreases |locs|
  {
    AllLoadCons(files, locs);
    match LoadYaml(files, locs[0])
    case Raised(_) =>
    case Read(v) =>
      var next := if !v.Mapping? then acc else if disableMerge then v.m else acc + v.m;
      ReadStepsFailure(files, locs[1..], next, disableMerge);
  }

  /** The empty path and "/" have no steps: they resolve to the empty
      mapping whatever the store holds, since no file is read. */
  lemma EmptyPathReadsNothing(s: Store, t: Store, disableMerge: bool)
    ensures ReadData(s, "", disableMerge) == ReadData(t, "", disableMerge) == Ok(map[])
    ensures ReadData(s, "/", disableMerge) == ReadData(t, "/", disableMerge) == Ok(map[])
  {
    assert Strings.Fields("/", '/') == ["", ""];
  }

  /** The walk `get_relevantfile` performs over `locs`, remembering in
      `found` the last file seen so far whose document has `key`. A file
      that fails to load ends the request with 404; a nil document is
      passed over; a document that is neither nil nor a mapping has no
      `has_key?`, and the exception it raises is not rescued. */
  function RelevantSteps(files: map<Path, Content<Value>>, locs: seq<Path>, key: string, found: Option<Path>): (r: Result<Path>)
    requires found.Some? ==> LoadYaml(files, found.value).Read? && Defines(LoadYaml(files, found.value).v, key)
    ensures r.Ok? ==> r.value in locs || Some(r.value) == found
    ensures r.Ok? ==> LoadYaml(files, r.value).Read? && Defines(LoadYaml(files, r.value).v, key)
    ensures r.Err? ==> r.code == NotFound || r.code == InternalError
    decreases |locs|
  {
    if locs == [] then
      match found
      case None => Err(NotFound)
      case Some(loc) => Ok(loc)
    else match LoadYaml(files, locs[0])
      case Raised(_) => Err(NotFound)
      case Read(v) =>
        if v.Nil? then RelevantSteps(files, locs[1..], key, found)
        else if v.Mapping? then
          RelevantSteps(files, locs[1..], key, if key in v.m then Some(locs[0]) else found)
        else Err(InternalError)
  }

  /** `get_relevantfile(path, key)`: the file that defines `key` for
      `path`, which is one of the files on the path and one whose own
      document has `key`. */
  function GetRelevantFile(s: Store, path: string, key: string): (r: Result<Path>)
    ensures r.Ok? ==> r.value in Chain(path)
    ensures r.Ok? ==> LoadYaml(s.files, r.value).Read? && Defines(LoadYaml(s.files, r.value).v, key)
    ensures r.Err? ==> r.code == NotFound || r.code == InternalError
  {
    RelevantSteps(s.files, Chain(path), key, None)
  }

  /** Every file of `locs` loads to nil or to a mapping, so `has_key?`
      can be asked of each. */
  predicate Searchable(files: map<Path, Content<Value>>, locs: seq<Path>) {
    forall i :: 0 <= i < |locs| ==>
      LoadYaml(files, locs[i]).Read? && (LoadYaml(files, locs[i]).v.Nil? || LoadYaml(files, locs[i]).v.Mapping?)
  }

  predicate DefinedAt(files: map<Path, Content<Value>>, loc: Path, key: string) {
    LoadYaml(files, loc).Read? && Defines(LoadYaml(files, loc).v, key)
  }

  /** The position of the last file of `locs` whose own document has `key`. */
  function LastDefining(files: map<Path, Content<Value>>, locs: seq<Path>, key: string): (r: Option<nat>)
    ensures r.Some? ==> r.value < |locs| && DefinedAt(files, locs[r.value], key)
    ensures r.Some? ==> forall j :: r.value < j < |locs| ==> !DefinedAt(files, locs[j], key)
    ensures r.None? ==> forall j :: 0 <= j < |locs| ==> !DefinedAt(files, locs[j], key)
    decreases |locs|
  {
    if locs == [] then None
    else
      assert forall j :: 1 <= j < |locs| ==> locs[1..][j - 1] == locs[j];
      match LastDefining(files, locs[1..], key)
      case Some(j) => Some(j + 1)
      case None => if DefinedAt(files, locs[0], key) then Some(0) else None
  }

  lemma {:induction false} RelevantStepsFindsLast(files: map<Path, Content<Value>>, locs: seq<Path>, key: string, found: Option<Path>)
    requires found.Some? ==> DefinedAt(files, found.value, key)
    requires Searchable(files, locs)
    ensures RelevantSteps(files, locs, key, found) ==
      match LastDefining(files, locs, key)
      case Some(i) => Ok(locs[i])
      case None => (match found case None => Err(NotFound) case Some(loc) => Ok(loc))
    decreases |locs|
  {
    if locs != [] {
      assert Searchable(files, locs[1..]) by {
        forall i | 0 <= i < |locs| - 1
          ensures LoadYaml(files, locs[1..][i]).Read?
        {
          assert locs[1..][i] == locs[i + 1];
        }
      }
      var v := LoadYaml(files, locs[0]).v;
      var next := if v.Mapping? && key in v.m then Some(locs[0]) else found;
      RelevantStepsFindsLast(files, locs[1..], key, next);
    }
  }

  lemma {:induction false} RelevantStepsStuck(files: map<Path, Content<Value>>, locs: seq<Path>, key: string, found: Option<Path>)
    requires found.Some? ==> DefinedAt(files, found.value, key)
    requires !Searchable(files, locs)
    ensures RelevantSteps(files, locs, key, found).Err?
    decreases |locs|
  {
    match LoadYaml(files, locs[0])
    case Raised(_) =>
    case Read(v) =>
      if v.Nil? || v.Mapping? {
        assert !Searchable(files, locs[1..]) by {
          if Searchable(files, locs[1..]) {
            forall i | 0 <= i < |locs|
              ensures LoadYaml(files, locs[i]).Read? && (LoadYaml(files, locs[i]).v.Nil? || LoadYaml(files, locs[i]).v.Mapping?)
            {
              if i > 0 {
                assert locs[1..][i - 1] == locs[i];
              }
            }
          }
        }
        var next := if v.Mapping? && key in v.m then Some(locs[0]) else found;
        RelevantStepsStuck(files, locs[1..], key, next);
      }
  }

  /** `get_relevantfile` answers with the deepest file on the path whose
      own, unmerged document has the key, even when shallower documents
      have it too, and with 404 when none has it. It fails as well when a
      file on the path does not load or cannot be asked for keys. */
  lemma RelevantFileIsDeepest(s: Store, path: string, key: string)
    ensures Searchable(s.files, Chain(path)) ==> (GetRelevantFile(s, path, key) ==
      match LastDefining(s.files, Chain(path), key)
      case Some(i) => Ok(Chain(path)[i])
      case None => Err(NotFound))
    ensures !Searchable(s.files, Chain(path)) ==> GetRelevantFile(s, path, key).Err?
  {
    if Searchable(s.files, Chain(path)) {
      RelevantStepsFindsLast(s.files, Chain(path), key, None);
    } else {
      RelevantStepsStuck(s.files, Chain(path), key, None);
    }
  }
}

=== FILE: routes.dfy ===
/** The request handlers around the store: what each answers, as a
    result or as the error code `return_error` halts the request with.
    Request bodies arrive already parsed; `None` is a body the JSON parser
    rejects. */
module Routes {
  import opened Outcomes
  import opened Strings
  import opened Paths
  import opened Documents
  import opened Resolver
  import opened Writes
  import Listing
  import Views

  /** The output formats a route accepts: none, or ".json". */
  predicate Supported(extension: string) {
    extension == "" || extension == ".json"
  }

  /** `GET /properties/<path>/key/<key>`: the resolved value of one key,
      as `{key => value}`. The key's extension is split off before the
      lookup. A path that does not resolve gives 404; so does a key whose
      value is nil or absent. An unsupported extension gives 400, but only
      once the key has been found. */
  function KeyRoute(s: Store, path: string, keyParam: string): (r: Result<Doc>)
    ensures ReadData(s, path, false).Err? ==> r == Err(NotFound)
    ensures ReadData(s, path, false).Ok? ==>
      var data := ReadData(s, path, false).value;
      var key := Basename(keyParam, ExtName(keyParam));
      && (r == Err(NotFound) <==> key !in data || data[key] == Nil)
      && (r == Err(BadRequest) <==> key in data && data[key] != Nil && !Supported(ExtName(keyParam)))
      && (r.Ok? <==> key in data && data[key] != Nil && Supported(ExtName(keyParam)))
      && (r.Ok? ==> r.value == map[key := data[key]])
  {
    var data :- ReadData(s, path, false);
    var extension := ExtName(keyParam);
    Answer(data, Basename(keyParam, extension), Supported(extension))
  }

  /** The answer for `key` once the data is read and the extension is
      known to be supported or not. */
  function Answer(data: Doc, key: string, supported: bool): Result<Doc> {
    if key !in data || data[key] == Nil then Err(NotFound)
    else if !supported then Err(BadRequest)
    else Ok(map[key := data[key]])
  }

  /** Asking for `k.json` is asking for `k`. */
  lemma KeyJsonIsKey(s: Store, path: string, k: string)
    requires k != "" && Free(k, '.') && Free(k, '/')
    ensures KeyRoute(s, path, k + ".json") == KeyRoute(s, path, k)
  {
    PlainName(k);
    JsonName(k);
    SameKey(s, path, k + ".json", k);
  }

  /** Two key parameters with the same basename and supported extensions
      get the same answer. */
  lemma SameKey(s: Store, path: string, p: string, q: string)
    requires Supported(ExtName(p)) && Supported(ExtName(q))
    requires Basename(p, ExtName(p)) == Basename(q, ExtName(q))
    ensures KeyRoute(s, path, p) == KeyRoute(s, path, q)
  {
    KeyRouteAnswer(s, path, p);
    KeyRouteAnswer(s, path, q);
  }

  lemma KeyRouteAnswer(s: Store, path: string, k: string)
    ensures ReadData(s, path, false).Ok? ==>
      KeyRoute(s, path, k) == Answer(ReadData(s, path, false).value, Basename(k, ExtName(k)), Supported(ExtName(k)))
  {
  }

  /** A key that ends in '.' has no extension, so it is looked up whole
      and answered as it is, never refused as an unsupported format. */
  lemma DottedKeyIsItself(s: Store, path: string, k: string)
    requires k != "" && Free(k, '/') && k[|k| - 1] == '.'
    ensures KeyRoute(s, path, k).Err? ==> KeyRoute(s, path, k) == Err(NotFound)
    ensures KeyRoute(s, path, k).Ok? ==>
      KeyRoute(s, path, k) == Ok(map[k := ReadData(s, path, false).value[k]])
  {
    DottedName(k);
  }

  /** A plain key answers with the value `read_data` resolves for it, the
      one of the deepest document on the path that defines it. */
  lemma KeyRouteFindsDeepest(s: Store, path: string, k: string, i: nat)
    requires k != "" && Free(k, '.') && Free(k, '/')
    requires AllLoad(s.files, Chain(path))
    requires i < |Chain(path)| && Defines(Values(s.files, Chain(path))[i], k)
    requires forall j :: i < j < |Chain(path)| ==> !Defines(Values(s.files, Chain(path))[j], k)
    requires Values(s.files, Chain(path))[i].m[k] != Nil
    ensures KeyRoute(s, path, k) == Ok(map[k := Values(s.files, Chain(path))[i].m[k]])
  {
    PlainName(k);
    ReadDataDeepestWins(s, path, k, i);
  }

  /** `GET /properties/<path>/eachpair<extension>`: the whole resolution
      of the path, the merge of its documents. A path that does not
      resolve gives 404 before the extension is looked at; an unsupported
      extension then gives 400. */
  function EachpairRoute(s: Store, path: string, extension: string): (r: Result<Doc>)
    ensures r.Ok? <==> AllLoad(s.files, Chain(path)) && Supported(extension)
    ensures !AllLoad(s.files, Chain(path)) ==> r == Err(NotFound)
    ensures AllLoad(s.files, Chain(path)) && !Supported(extension) ==> r == Err(BadRequest)
    ensures r.Ok? ==> r.value == Merged(Values(s.files, Chain(path)))
  {
    ReadDataIsMerge(s, path);
    var data :- ReadData(s, path, false);
    if !Supported(extension) then Err(BadRequest)
    else Ok(data)
  }

  /** `GET /properties/<path>/key/<key>.filename`: the file that defines
      the key, as `{key => file}`; the file is the deepest one on the path
      whose own document has the key, and when none has it the answer is
      404. */
  function FilenameRoute(s: Store, path: string, key: string): (r: Result<(string, Path)>)
    ensures Searchable(s.files, Chain(path)) ==> (r ==
      match LastDefining(s.files, Chain(path), key)
      case Some(i) => Ok((key, Chain(path)[i]))
      case None => Err(NotFound))
    ensures r.Err? ==> r.code == NotFound || r.code == InternalError
  {
    RelevantFileIsDeepest(s, path, key);
    var file :- GetRelevantFile(s, path, key);
    Ok((key, file))
  }

  /** `PUT /properties/<path>`: a body that is not JSON gives 400;
      otherwise the body is upserted into the path's document by
      `update_yaml`, with its answers. */
  function PutProperties(s: Store, path: string, body: Option<Parsed>, writeFails: bool): (r: Result<Store>)
    ensures body.None? ==> r == Err(BadRequest)
    ensures body.Some? ==> r == UpdateYaml(s, path, body.value, writeFails)
    ensures r.Ok? ==> LeafKey(path) in s.files && r.value.files.Keys == s.files.Keys
  {
    match body
    case None => Err(BadRequest)
    case Some(data) => UpdateYaml(s, path, data, writeFails)
  }

  /** `POST /`: a body that is not JSON gives 400. The node to create is
      `data['path']`, which must be a string. For a Hash body it is the
      entry "path". For a string body it is `String#[]`: the text "path"
      itself when the body contains it, and `nil` otherwise. A body of any
      other kind, or a `nil` or non-string node, raises before anything
      is created. */
  function PostCreate(s: Store, body: Option<Parsed>, faults: map<Path, Fault>): (r: Result<Store>)
    ensures body.None? ==> r == Err(BadRequest)
    ensures r.Err? ==> r.code == BadRequest || r.code == InternalError
    ensures body.Some? && body.value.Hash? ==>
      && (r.Ok? <==> "path" in ToMap(body.value.pairs) && ToMap(body.value.pairs)["path"].Str?)
      && (r.Ok? ==> r.value == CreateEmptyYaml(s, ToMap(body.value.pairs)["path"].s, faults))
    ensures body.Some? && body.value.Text? ==>
      && (r.Ok? <==> exists i: nat :: OccursAt(body.value.s, "path", i))
      && (r.Ok? ==> r.value == CreateEmptyYaml(s, "path", faults))
    ensures body == Some(NotHash) ==> r == Err(InternalError)
  {
    match body
    case None => Err(BadRequest)
    case Some(NotHash) => Err(InternalError)
    case Some(Text(text)) =>
      if IndexFrom(text, "path", 0).Some? then Ok(CreateEmptyYaml(s, "path", faults))
      else Err(InternalError)
    case Some(Hash(pairs)) =>
      var data := ToMap(pairs);
      if "path" in data && data["path"].Str? then Ok(CreateEmptyYaml(s, data["path"].s, faults))
      else Err(InternalError)
  }

  /** A node posted twice is created once: the second request finds it in
      place and leaves the store as the first left it. */
  lemma PostCreateTwice(s: Store, body: Option<Parsed>)
    requires PostCreate(s, body, map[]).Ok?
    ensures PostCreate(PostCreate(s, body, map[]).value, body, map[]) == PostCreate(s, body, map[])
  {
    if body.value.Hash? {
      CreateIdempotent(s, ToMap(body.value.pairs)["path"].s);
    } else {
      CreateIdempotent(s, "path");
    }
  }

  /** A JSON string body names the node "path" whenever it contains that
      text, whatever else it says. */
  lemma PostCreateOfText(s: Store, before: string, after: string)
    ensures PostCreate(s, Some(Text(before + "path" + after)), map[]) == Ok(CreateEmptyYaml(s, "path", map[]))
  {
    assert OccursAt(before + "path" + after, "path", |before|) by {
      var t := before + "path" + after;
      assert t[|before|..|before| + 4] == "path";
    }
  }

  /** A top-level name without '/' is clean, and it is its own node. */
  lemma TopName(n: string)
    requires n != "" && Free(n, '/')
    ensures Clean(n) && Steps(n) == [n] && LeafKey(n) == [n] && Nodes([], Steps(n)) == {[n]}
  {
    FieldsOfFree(n, '/');
    SplitOfFree(n, '/');
    assert [] + [n] == [n];
  }

  /** Creating a top-level name nothing stands in the way of makes its
      directory and its document. Nothing else changes, apart from the
      directories already there. */
  lemma TopCreate(s: Store, n: string)
    requires n != "" && Free(n, '/') && Clear(s, [n])
    ensures var t := CreateEmptyYaml(s, n, map[]);
      && [n] in t.dirs && [n] in t.files && t.dirs <= s.dirs + {[], [n]}
      && forall p :: p in t.files && p !in s.files ==> p == [n]
  {
    TopName(n);
    CreateMakesLeaf(s, n);
    assert DirKey(n) == [n];
    TopAncestors(n);
  }

  lemma TopAncestors(n: string)
    ensures Ancestors([n]) == {[], [n]}
  {
    assert [n][..0] == [] && [n][..1] == [n];
  }

  /** The document of `n` stands where the directory "n.yaml" would go. */
  lemma DocumentOccupies(s: Store, n: string)
    requires [n] in s.files && [n + ".yaml"] !in s.dirs
    ensures MkdirBlocked(s, [n + ".yaml"])
  {
    assert [n + ".yaml"][..1] == [n + ".yaml"];
    StemOf(n);
    assert [] + [Stem(n + ".yaml")] == [n];
  }

  /** Creating a top-level name whose directory `mkdir_p` cannot make
      changes nothing. */
  lemma TopBlocked(s: Store, n: string)
    requires n != "" && Free(n, '/') && [n] !in s.dirs && MkdirBlocked(s, [n])
    ensures CreateEmptyYaml(s, n, map[]) == s
  {
    TopName(n);
    CreateStepsNoop(s, [], [n]);
  }

  /** Creating a plain top-level name whose document name is already a
      directory makes its directory but writes no document. */
  lemma TopBesideDirectory(s: Store, n: string)
    requires n != "" && Free(n, '/') && !YamlName(n) && [n] !in s.files && [n + ".yaml"] in s.dirs
    ensures var t := CreateEmptyYaml(s, n, map[]);
      [n] in t.dirs && [n] !in t.files
  {
    TopLeaf(n);
    TopDocEntry(n);
    CreateBesideDirectory(s, n, map[]);
    TopPlainDir(s, n);
  }

  lemma TopLeaf(n: string)
    requires n != "" && Free(n, '/')
    ensures Clean(n) && LeafKey(n) == [n]
  {
    TopName(n);
  }

  lemma TopDocEntry(n: string)
    ensures DocEntry([n]) == [n + ".yaml"]
  {
  }

  /** A fault-free creation of a plain top-level name always leaves its
      directory. */
  lemma TopPlainDir(s: Store, n: string)
    requires n != "" && Free(n, '/') && !YamlName(n)
    ensures [n] in CreateEmptyYaml(s, n, map[]).dirs
  {
    TopName(n);
    var t := CreateEmptyYaml(s, n, map[]);
    assert t == CreateSteps(s, [], [n], map[]);
    CreateStepsSettles(s, [], [n]);
    PlainNotBlocked(t, n);
  }

  /** Nothing can stop `mkdir_p` of a plain top-level name. */
  lemma PlainNotBlocked(s: Store, n: string)
    requires !YamlName(n)
    ensures !MkdirBlocked(s, [n])
  {
    forall i | 0 < i <= 1
      ensures !Occupied(s.files, [n][..i])
    {
      assert [n][..i] == [n];
    }
  }

  /** Creating "n.yaml" and then "n", for a plain top-level name `n`:
      the directory "n.yaml" has the name the document of "n" needs, so
      "n" gets a directory but no document, and the listing of the root
      names `n` (for that directory) and "n.yaml" (for its document). */
  lemma DirectoryBeforeDocument(s0: Store, n: string)
    requires n != "" && Free(n, '/') && !YamlName(n) && Visible(n)
    requires Clear(s0, [n + ".yaml"]) && [n] !in s0.files
    ensures var s1 := CreateEmptyYaml(s0, n + ".yaml", map[]);
      var s2 := CreateEmptyYaml(s1, n, map[]);
      && [n + ".yaml"] in s1.dirs && [n + ".yaml"] in s1.files
      && [n] in s2.dirs && [n] !in s2.files
      && n in Listing.DocumentNames(s2, []) && n + ".yaml" in Listing.DocumentNames(s2, [])
  {
    var s1 := CreateEmptyYaml(s0, n + ".yaml", map[]);
    assert Free(n + ".yaml", '/');
    TopCreate(s0, n + ".yaml");
    assert [n] != [n + ".yaml"];
    TopBesideDirectory(s1, n);
    assert [] + [n + ".yaml"] == [n + ".yaml"];
  }

  /** Creating "n" and then "n.yaml", for a top-level name `n`: the
      document of "n" has the name the directory "n.yaml" needs, so
      `mkdir_p` raises and the second call changes nothing. */
  lemma DocumentBeforeDirectory(s0: Store, n: string)
    requires n != "" && Free(n, '/') && Clear(s0, [n]) && [n + ".yaml"] !in s0.dirs
    ensures var s1 := CreateEmptyYaml(s0, n, map[]);
      && [n] in s1.dirs && [n] in s1.files
      && CreateEmptyYaml(s1, n + ".yaml", map[]) == s1
      && [n + ".yaml"] !in s1.dirs
  {
    var s1 := CreateEmptyYaml(s0, n, map[]);
    TopCreate(s0, n);
    DocumentOccupies(s1, n);
    assert Free(n + ".yaml", '/');
    TopBlocked(s1, n + ".yaml");
  }

  /** A view file the listing names is the one `GET /view/<name>` reads:
      the listed name is its own view name, so `read_view` finds the
      stored file and never consults the JSON parser. This holds for a
      name that does not itself end in `.yaml`; the view file `m.yaml.yaml`
      is listed as `m.yaml`, but `read_view("m.yaml")` reads the view `m`
      (`ListedYamlView`). */
  lemma ListedViewIsRead(s: Store, base: string, n: string, parseJson: string -> Option<Parsed>)
    requires s.views.Some? && n in s.views.value && Visible(n) && Free(n, '/') && !Strips(n, ".yaml")
    ensures Listing.ListViews(s, base).Ok?
    ensures exists e :: e in Listing.ListViews(s, base).value && e.name == n
    ensures s.views.value[n].Unparsable? ==> Views.ViewSource(s, n, parseJson) == Err(InternalError)
    ensures s.views.value[n].Loaded? ==> Views.ViewSource(s, n, parseJson) == Ok(s.views.value[n].v)
  {
    Views.ViewNameOfFile(n);
  }

  /** A listed name that ends in `.yaml` reads the view of its stem. */
  lemma ListedYamlView(m: string)
    requires m != "" && Free(m, '/')
    ensures Views.ViewName(m + ".yaml") == m
  {
    Views.ViewNameOfFile(m);
  }
}

=== FILE: strings.dfy ===
/** The handful of Ruby string operations the store's logic depends on,
    with Ruby's edge cases: `split` on a one-character separator, trimming a
    repeated character, and finding or removing a literal substring. */
module Strings {
  import opened Outcomes

  /** The pieces of `s` between occurrences of `sep`, empty pieces
      included; there is always at least one piece. */
  function Fields(s: string, sep: char): (r: seq<string>)
    ensures |r| >= 1
    ensures forall i, j :: 0 <= i < |r| && 0 <= j < |r[i]| ==> r[i][j] != sep
    decreases |s|
  {
    if s == [] then [""]
    else
      var rest := Fields(s[1..], sep);
      if s[0] == sep then [""] + rest
      else [[s[0]] + rest[0]] + rest[1..]
  }

  /** The pieces glued back together with `sep` between neighbours. */
  function Unfields(fs: seq<string>, sep: char): string
    requires |fs| >= 1
    decreases |fs|
  {
    if |fs| == 1 then fs[0] else fs[0] + [sep] + Unfields(fs[1..], sep)
  }

  predicate Free(s: string, c: char) {
    forall j :: 0 <= j < |s| ==> s[j] != c
  }

  lemma UnfieldsCons(c: char, fs: seq<string>, sep: char)
    requires |fs| >= 1
    ensures Unfields([[c] + fs[0]] + fs[1..], sep) == [c] + Unfields(fs, sep)
  {
    var gs := [[c] + fs[0]] + fs[1..];
    if |fs| > 1 {
      assert gs[1..] == fs[1..];
    }
  }

  /** Splitting loses nothing: gluing the pieces back gives the string. */
  lemma {:induction false} UnfieldsOfFields(s: string, sep: char)
    ensures Unfields(Fields(s, sep), sep) == s
    decreases |s|
  {
    if s != [] {
      UnfieldsOfFields(s[1..], sep);
      var rest := Fields(s[1..], sep);
      var fs := Fields(s, sep);
      if s[0] == sep {
        assert fs == [""] + rest;
        assert fs[1..] == rest;
        assert s == [sep] + s[1..];
      } else {
        assert fs == [[s[0]] + rest[0]] + rest[1..];
        UnfieldsCons(s[0], rest, sep);
        assert s == [s[0]] + s[1..];
      }
    }
  }

  lemma {:induction false} FieldsOfFree(a: string, sep: char)
    requires Free(a, sep)
    ensures Fields(a, sep) == [a]
    decreases |a|
  {
    if a != [] {
      FieldsOfFree(a[1..], sep);
      assert [a[0]] + a[1..] == a;
    }
  }

  lemma {:induction false} FieldsOfGlued(a: string, b: string, sep: char)
    requires Free(a, sep)
    ensures Fields(a + [sep] + b, sep) == [a] + Fields(b, sep)
    decreases |a|
  {
    var s := a + [sep] + b;
    if a == [] {
      assert s[1..] == b;
    } else {
      assert s[1..] == a[1..] + [sep] + b;
      FieldsOfGlued(a[1..], b, sep);
      assert [a[0]] + a[1..] == a;
    }
  }

  /** Gluing pieces that contain no separator and splitting again gives
      the same pieces. */
  lemma {:induction false} FieldsOfUnfields(fs: seq<string>, sep: char)
    requires |fs| >= 1
    requires forall i :: 0 <= i < |fs| ==> Free(fs[i], sep)
    ensures Fields(Unfields(fs, sep), sep) == fs
    decreases |fs|
  {
    if |fs| == 1 {
      FieldsOfFree(fs[0], sep);
    } else {
      FieldsOfUnfields(fs[1..], sep);
      FieldsOfGlued(fs[0], Unfields(fs[1..], sep), sep);
      assert [fs[0]] + fs[1..] == fs;
    }
  }

  /** The longest prefix of `fs` that does not end in an empty piece. */
  function DropTrailingEmpty(fs: seq<string>): (r: seq<string>)
    ensures |r| <= |fs| && r == fs[..|r|]
    ensures r != [] ==> r[|r| - 1] != ""
    ensures forall i :: |r| <= i < |fs| ==> fs[i] == ""
    decreases |fs|
  {
    if fs == [] then []
    else if fs[|fs| - 1] == "" then DropTrailingEmpty(fs[..|fs| - 1])
    else fs
  }

  /** Ruby's `s.split(sep)` for a one-character separator: the pieces with
      the trailing empty ones removed, so "" and a string made only of
      separators split into nothing. */
  function Split(s: string, sep: char): (r: seq<string>)
    ensures forall i :: 0 <= i < |r| ==> Free(r[i], sep)
    ensures r != [] ==> r[|r| - 1] != ""
  {
    var fs := Fields(s, sep);
    var r := DropTrailingEmpty(fs);
    assert forall i :: 0 <= i < |r| ==> r[i] == fs[i];
    r
  }

  /** A separator added at the end of the text adds an empty last piece. */
  lemma {:induction false} FieldsSnoc(x: string, sep: char)
    ensures Fields(x + [sep], sep) == Fields(x, sep) + [""]
    decreases |x|
  {
    var y := x + [sep];
    if x == [] {
      assert y[1..] == [];
    } else {
      assert y[1..] == x[1..] + [sep];
      FieldsSnoc(x[1..], sep);
      var rest := Fields(x[1..], sep);
      if x[0] != sep {
        assert (rest + [""])[0] == rest[0];
        assert (rest + [""])[1..] == rest[1..] + [""];
      }
    }
  }

  /** Trailing separators do not change what `split` gives. */
  lemma {:induction false} SplitTrailing(s: string, sep: char)
    ensures Split(s, sep) == Split(TrimTrailing(s, sep), sep)
    decreases |s|
  {
    if s != [] && s[|s| - 1] == sep {
      var x := s[..|s| - 1];
      assert s == x + [sep];
      FieldsSnoc(x, sep);
      var fs := Fields(x, sep);
      assert (fs + [""])[..|fs|] == fs;
      assert Split(s, sep) == Split(x, sep);
      SplitTrailing(x, sep);
    }
  }

  /** A text that does not end in the separator does not end in an empty
      piece. */
  lemma {:induction false} LastFieldFilled(t: string, sep: char)
    requires t != [] && t[|t| - 1] != sep
    ensures Fields(t, sep)[|Fields(t, sep)| - 1] != ""
    decreases |t|
  {
    var rest := Fields(t[1..], sep);
    if |t| > 1 {
      assert t[1..][|t| - 2] == t[|t| - 1];
      LastFieldFilled(t[1..], sep);
    }
  }

  /** Splitting and gluing the pieces back gives the text without its
      trailing separators; nothing at all is left exactly when the text is
      made only of separators. */
  lemma SplitRejoins(s: string, sep: char)
    ensures Split(s, sep) == [] <==> TrimTrailing(s, sep) == ""
    ensures Split(s, sep) != [] ==> Unfields(Split(s, sep), sep) == TrimTrailing(s, sep)
  {
    var t := TrimTrailing(s, sep);
    SplitTrailing(s, sep);
    if t == [] {
      assert Fields(t, sep) == [""];
      assert [""][..0] == [];
    } else {
      LastFieldFilled(t, sep);
      UnfieldsOfFields(t, sep);
    }
  }

  lemma SplitOfFree(a: string, sep: char)
    requires Free(a, sep) && a != ""
    ensures Split(a, sep) == [a]
  {
    FieldsOfFree(a, sep);
  }

  /** `s` with every trailing `c` removed. */
  function TrimTrailing(s: string, c: char): (r: string)
    ensures |r| <= |s| && r == s[..|r|]
    ensures r != [] ==> r[|r| - 1] != c
    ensures forall i :: |r| <= i < |s| ==> s[i] == c
    decreases |s|
  {
    if s != [] && s[|s| - 1] == c then TrimTrailing(s[..|s| - 1], c) else s
  }

  /** `s` with every leading `c` removed. */
  function TrimLeading(s: string, c: char): (r: string)
    ensures |r| <= |s| && r == s[|s| - |r|..]
    ensures r != [] ==> r[0] != c
    ensures forall i :: 0 <= i < |s| - |r| ==> s[i] == c
    decreases |s|
  {
    if s != [] && s[0] == c then TrimLeading(s[1..], c) else s
  }

  /** The position of the last `c` in `s`. */
  function LastIndexOf(s: string, c: char): (r: Option<nat>)
    ensures r.Some? ==> r.value < |s| && s[r.value] == c && Free(s[r.value + 1..], c)
    ensures r.None? ==> Free(s, c)
    decreases |s|
  {
    if s == [] then None
    else if s[|s| - 1] == c then Some(|s| - 1)
    else
      var r := LastIndexOf(s[..|s| - 1], c);
      assert s[..|s| - 1] + [s[|s| - 1]] == s;
      r
  }

  /** Trimming or searching for a character that does not occur finds
      nothing. */
  lemma Untouched(s: string, c: char)
    requires Free(s, c)
    ensures TrimLeading(s, c) == s && TrimTrailing(s, c) == s
    ensures LastIndexOf(s, c).None?
  {
    if s != [] {
      assert s[0] != c && s[|s| - 1] != c;
    }
  }

  predicate OccursAt(s: string, pat: string, i: nat) {
    i + |pat| <= |s| && s[i..i + |pat|] == pat
  }

  /** The first position at or after `from` where `pat` occurs in `s`. */
  function IndexFrom(s: string, pat: string, from: nat): (r: Option<nat>)
    ensures r.Some? ==> from <= r.value && OccursAt(s, pat, r.value)
    ensures r.Some? ==> forall j :: from <= j < r.value ==> !OccursAt(s, pat, j)
    ensures r.None? ==> forall j :: from <= j ==> !OccursAt(s, pat, j)
    decreases |s| - from
  {
    if from + |pat| > |s| then None
    else if s[from..from + |pat|] == pat then Some(from)
    else IndexFrom(s, pat, from + 1)
  }

  /** Ruby's `s.sub(pat, '')` for a pattern matched literally: the first
      occurrence of `pat` removed, or `s` itself when there is none. */
  function RemoveFirst(s: string, pat: string): (r: string)
    ensures (forall j: nat :: !OccursAt(s, pat, j)) ==> r == s
    ensures forall i: nat :: OccursAt(s, pat, i) && (forall j: nat :: j < i ==> !OccursAt(s, pat, j)) ==>
      r == s[..i] + s[i + |pat|..]
  {
    match IndexFrom(s, pat, 0)
    case None => s
    case Some(i) => s[..i] + s[i + |pat|..]
  }

  /** Removing a prefix that is the first occurrence leaves the rest. */
  lemma RemoveFirstOfPrefix(pat: string, rest: string)
    ensures RemoveFirst(pat + rest, pat) == rest
  {
    assert OccursAt(pat + rest, pat, 0) by {
      assert (pat + rest)[0..|pat|] == pat;
    }
    var i := IndexFrom(pat + rest, pat, 0);
    assert i == Some(0);
    assert (pat + rest)[|pat|..] == rest;
  }

  /** Without an occurrence nothing is removed, and with one exactly
      `|pat|` characters go. */
  lemma RemoveFirstLength(s: string, pat: string)
    ensures IndexFrom(s, pat, 0).None? ==> RemoveFirst(s, pat) == s
    ensures IndexFrom(s, pat, 0).Some? ==> |RemoveFirst(s, pat)| == |s| - |pat|
  {
  }
}

=== FILE: views.dfy ===
/** View evaluation: `read_view`, which takes a stored view or a literal
    JSON view and resolves the paths it names. */
module Views {
  import opened Outcomes
  import opened Strings
  import opened Paths
  import opened Documents
  import opened Resolver

  /** The view file `File.join(view_dir, basename(view, '.yaml') + '.yaml')`
      by its name in the view directory ("/" joins to the file `.yaml`). */
  function ViewName(view: string): (r: string)
    ensures Free(r, '/')
    ensures TrimTrailing(view, '/') == "" ==> r == ""
    ensures TrimTrailing(view, '/') != "" ==> r == LastComponent(view) || r + ".yaml" == LastComponent(view)
  {
    var name := Basename(view, ".yaml");
    if TrimTrailing(view, '/') == "" then ""
    else
      var c := LastComponent(view);
      assert name == c[..|name|];
      assert forall j :: 0 <= j < |name| ==> name[j] == c[j];
      name
  }

  /** A view asked for by its file name or by its bare name reads the
      same file. */
  lemma ViewNameOfFile(v: string)
    requires v != "" && Free(v, '/')
    ensures ViewName(v + ".yaml") == v
    ensures !Strips(v, ".yaml") ==> ViewName(v) == v
  {
    var f := v + ".yaml";
    assert Free(f, '/') by {
      assert forall j :: 0 <= j < |v| ==> f[j] == v[j];
    }
    BasenameOfFree(f, ".yaml");
    assert Strips(f, ".yaml") by {
      assert f[|f| - 5..] == ".yaml";
    }
    assert f[..|f| - 5] == v;
    BasenameOfFree(v, ".yaml");
  }

  /** The view text read_view works from. A stored view file wins over
      the argument; a stored file that does not load raises, which nothing
      rescues; an argument that is not JSON gives 400. `parseJson` is the
      JSON parser, left abstract. */
  function ViewSource(s: Store, view: string, parseJson: string -> Option<Parsed>): (r: Result<Parsed>)
    ensures r.Err? ==> r.code == BadRequest || r.code == InternalError
    ensures s.views.Some? && ViewName(view) in s.views.value ==>
      && (s.views.value[ViewName(view)].Unparsable? ==> r == Err(InternalError))
      && (s.views.value[ViewName(view)].Loaded? ==> r == Ok(s.views.value[ViewName(view)].v))
    ensures (s.views.None? || ViewName(view) !in s.views.value) ==>
      && (parseJson(view).None? ==> r == Err(BadRequest))
      && (parseJson(view).Some? ==> r == Ok(parseJson(view).value))
  {
    var name := ViewName(view);
    if s.views.Some? && name in s.views.value then
      match s.views.value[name]
      case Unparsable => Err(InternalError)
      case Loaded(p) => Ok(p)
    else
      match parseJson(view)
      case None => Err(BadRequest)
      case Some(p) => Ok(p)
  }

  /** What one entry adds to the result of a view: `list` stores the
      resolution under its path, `merge` merges it in. */
  function Gather(verb: string, acc: Doc, path: string, data: Doc): Doc {
    if verb == "list" then acc[path := Mapping(data)] else acc + data
  }

  /** The loop of `read_view` over the view's entries, with the result so
      far in `acc`: `list` stores each path's resolution under the path,
      `merge` merges each resolution in, later ones overriding; any other
      verb gives 406 at the first entry. An entry that is not a string has
      no `split`, and the exception is not rescued. */
  function Evaluate(s: Store, verb: string, entries: seq<Value>, acc: Doc): (r: Result<Doc>)
    ensures entries == [] ==> r == Ok(acc)
    ensures entries != [] && verb != "list" && verb != "merge" ==> r == Err(NotAcceptable)
    ensures r.Err? ==> r.code == NotFound || r.code == NotAcceptable || r.code == InternalError
    decreases |entries|
  {
    if entries == [] then Ok(acc)
    else if verb != "list" && verb != "merge" then Err(NotAcceptable)
    else if !entries[0].Str? then Err(InternalError)
    else
      var data :- ReadData(s, entries[0].s, false);
      Evaluate(s, verb, entries[1..], Gather(verb, acc, entries[0].s, data))
  }

  /** `read_view(view)`. The verb is the first key of the view; its value
      must be enumerable: a list of paths, or a mapping, whose entries are
      pairs that are not paths. */
  function ReadView(s: Store, view: string, parseJson: string -> Option<Parsed>): (r: Result<Doc>)
    ensures ViewSource(s, view, parseJson).Err? ==> r == Err(ViewSource(s, view, parseJson).code)
    ensures r.Err? ==> r.code in {BadRequest, NotFound, NotAcceptable, InternalError}
  {
    var source :- ViewSource(s, view, parseJson);
    Interpret(s, source)
  }

  /** What `read_view` does with the view text once it has it. */
  function Interpret(s: Store, source: Parsed): (r: Result<Doc>)
    ensures r.Err? ==> r.code in {BadRequest, NotFound, NotAcceptable, InternalError}
  {
    match source
    case Text(_) => Err(InternalError)
    case NotHash => Err(InternalError)
    case Hash(pairs) =>
      if pairs == [] then Err(InternalError)
      else
        var verb := pairs[0].0;
        assert verb in ToMap(pairs);
        match ToMap(pairs)[verb]
        case List(entries) => Evaluate(s, verb, entries, map[])
        case Mapping(m) =>
          if m == map[] then Ok(map[])
          else if verb == "list" || verb == "merge" then Err(InternalError)
          else Err(NotAcceptable)
        case _ => Err(InternalError)
  }

  /** Every entry is a path that resolves. */
  predicate Resolvable(s: Store, entries: seq<Value>) {
    forall i :: 0 <= i < |entries| ==> entries[i].Str? && ReadData(s, entries[i].s, false).Ok?
  }

  /** The resolutions of resolvable entries, as mappings. */
  function Resolutions(s: Store, entries: seq<Value>): (rs: seq<Value>)
    requires Resolvable(s, entries)
    ensures |rs| == |entries|
    ensures forall i :: 0 <= i < |entries| ==> rs[i] == Mapping(ReadData(s, entries[i].s, false).value)
  {
    seq(|entries|, i requires 0 <= i < |entries| => Mapping(ReadData(s, entries[i].s, false).value))
  }

  lemma ResolvableTail(s: Store, entries: seq<Value>)
    requires entries != []
    ensures Resolvable(s, entries) <==>
      entries[0].Str? && ReadData(s, entries[0].s, false).Ok? && Resolvable(s, entries[1..])
  {
    var tail := entries[1..];
    assert forall i :: 0 <= i < |tail| ==> tail[i] == entries[i + 1];
    if entries[0].Str? && ReadData(s, entries[0].s, false).Ok? && Resolvable(s, tail) {
      forall i | 0 <= i < |entries|
        ensures entries[i].Str? && ReadData(s, entries[i].s, false).Ok?
      {
        if i > 0 {
          assert entries[i] == tail[i - 1];
        }
      }
    }
  }

  lemma ResolutionsCons(s: Store, entries: seq<Value>)
    requires entries != [] && Resolvable(s, entries) && Resolvable(s, entries[1..])
    ensures Resolutions(s, entries) == [Resolutions(s, entries)[0]] + Resolutions(s, entries[1..])
  {
    var rs := Resolutions(s, entries);
    var ts := Resolutions(s, entries[1..]);
    forall i | 0 <= i < |rs|
      ensures rs[i] == ([rs[0]] + ts)[i]
    {
      if i > 0 {
        assert entries[1..][i - 1] == entries[i];
      }
    }
  }

  /** A view's paths all resolve exactly when the first does and the rest
      all do; the resolutions are then the first one's followed by the
      rest's. */
  lemma ResolvableCons(s: Store, entries: seq<Value>)
    requires entries != []
    ensures Resolvable(s, entries) <==>
      entries[0].Str? && ReadData(s, entries[0].s, false).Ok? && Resolvable(s, entries[1..])
    ensures Resolvable(s, entries) ==>
      Resolutions(s, entries) == [Mapping(ReadData(s, entries[0].s, false).value)] + Resolutions(s, entries[1..])
  {
    ResolvableTail(s, entries);
    if Resolvable(s, entries) {
      ResolutionsCons(s, entries);
    }
  }

  lemma {:induction false} EvaluateMerges(s: Store, entries: seq<Value>, acc: Doc)
    requires Resolvable(s, entries)
    ensures Evaluate(s, "merge", entries, acc) == Ok(acc + Merged(Resolutions(s, entries)))
    decreases |entries|
  {
    if entries == [] {
      assert acc + map[] == acc;
    } else {
      ResolvableCons(s, entries);
      var data := ReadData(s, entries[0].s, false).value;
      EvaluateStep(s, "merge", entries, acc);
      EvaluateMerges(s, entries[1..], acc + data);
      var rs := Resolutions(s, entries);
      assert rs[1..] == Resolutions(s, entries[1..]);
      assert Merged(rs) == data + Merged(rs[1..]);
      UnionAssoc(acc, data, Merged(rs[1..]));
    }
  }

  /** A `merge` view over resolvable paths is the merge of their
      resolutions in order, later paths overriding earlier ones on
      colliding keys. */
  lemma MergeViewIsFold(s: Store, entries: seq<Value>)
    requires Resolvable(s, entries)
    ensures Evaluate(s, "merge", entries, map[]) == Ok(Merged(Resolutions(s, entries)))
  {
    EvaluateMerges(s, entries, map[]);
    assert map[] + Merged(Resolutions(s, entries)) == Merged(Resolutions(s, entries));
  }

  /** The paths a view names. */
  function Named(entries: seq<Value>): set<string> {
    set i | 0 <= i < |entries| && entries[i].Str? :: entries[i].s
  }

  lemma NamedCons(entries: seq<Value>)
    requires entries != [] && entries[0].Str?
    ensures Named(entries) == {entries[0].s} + Named(entries[1..])
  {
    var rest := entries[1..];
    forall p | p in Named(entries)
      ensures p in {entries[0].s} + Named(rest)
    {
      var i :| 0 <= i < |entries| && entries[i].Str? && entries[i].s == p;
      if i > 0 {
        assert rest[i - 1] == entries[i];
      }
    }
    forall p | p in Named(rest)
      ensures p in Named(entries)
    {
      var i :| 0 <= i < |rest| && rest[i].Str? && rest[i].s == p;
      assert entries[i + 1] == rest[i];
    }
  }

  /** One step of a view over a path that resolves. */
  lemma EvaluateStep(s: Store, verb: string, entries: seq<Value>, acc: Doc)
    requires verb == "list" || verb == "merge"
    requires entries != [] && entries[0].Str? && ReadData(s, entries[0].s, false).Ok?
    ensures Evaluate(s, verb, entries, acc) ==
      Evaluate(s, verb, entries[1..], Gather(verb, acc, entries[0].s, ReadData(s, entries[0].s, false).value))
  {
  }

  lemma {:induction false} EvaluateLists(s: Store, entries: seq<Value>, acc: Doc)
    requires Resolvable(s, entries)
    ensures Evaluate(s, "list", entries, acc).Ok?
    ensures Evaluate(s, "list", entries, acc).value.Keys == acc.Keys + Named(entries)
    ensures forall p :: p in Named(entries) ==>
      Evaluate(s, "list", entries, acc).value[p] == Mapping(ReadData(s, p, false).value)
    ensures forall p :: p in acc && p !in Named(entries) ==>
      Evaluate(s, "list", entries, acc).value[p] == acc[p]
    decreases |entries|
  {
    if entries != [] {
      ResolvableTail(s, entries);
      NamedCons(entries);
      var e := entries[0].s;
      var rest := entries[1..];
      var data := ReadData(s, e, false).value;
      var next := acc[e := Mapping(data)];
      EvaluateStep(s, "list", entries, acc);
      EvaluateLists(s, rest, next);
      var r := Evaluate(s, "list", rest, next).value;
      assert Evaluate(s, "list", entries, acc) == Ok(r);
      assert next.Keys == acc.Keys + {e};
      assert r.Keys == acc.Keys + Named(entries);
      forall p | p in Named(entries)
        ensures r[p] == Mapping(ReadData(s, p, false).value)
      {
        if p !in Named(rest) {
          assert p == e && r[p] == next[e];
        }
      }
      forall p | p in acc && p !in Named(entries)
        ensures r[p] == acc[p]
      {
        assert p != e && p !in Named(rest);
        assert r[p] == next[p];
      }
    }
  }

  /** A `list` view over resolvable paths maps exactly those paths, each
      to its own resolution. */
  lemma ListViewMapsEachPath(s: Store, entries: seq<Value>)
    requires Resolvable(s, entries)
    ensures Evaluate(s, "list", entries, map[]).Ok?
    ensures Evaluate(s, "list", entries, map[]).value.Keys == Named(entries)
    ensures forall p :: p in Named(entries) ==>
      Evaluate(s, "list", entries, map[]).value[p] == Mapping(ReadData(s, p, false).value)
  {
    EvaluateLists(s, entries, map[]);
  }

  /** A path that does not resolve fails the whole view with 404 when the
      paths before it resolve. */
  lemma {:induction false} UnresolvedPathFails(s: Store, verb: string, entries: seq<Value>, acc: Doc, i: nat)
    requires verb == "list" || verb == "merge"
    requires i < |entries| && Resolvable(s, entries[..i])
    requires entries[i].Str? && ReadData(s, entries[i].s, false).Err?
    ensures Evaluate(s, verb, entries, acc) == Err(NotFound)
    decreases |entries|
  {
    if i > 0 {
      var pre := entries[..i];
      ResolvableTail(s, pre);
      assert pre[0] == entries[0];
      assert pre[1..] == entries[1..][..i - 1];
      EvaluateStep(s, verb, entries, acc);
      var data := ReadData(s, entries[0].s, false).value;
      UnresolvedPathFails(s, verb, entries[1..], Gather(verb, acc, entries[0].s, data), i - 1);
    }
  }

  /** The view `view` reads has `verb` as its first key, with `value`
      under it. */
  predicate Asks(s: Store, view: string, parseJson: string -> Option<Parsed>, verb: string, value: Value) {
    var source := ViewSource(s, view, parseJson);
    && source.Ok? && source.value.Hash?
    && source.value.pairs != [] && source.value.pairs[0].0 == verb
    && verb in ToMap(source.value.pairs) && ToMap(source.value.pairs)[verb] == value
  }

  /** A `list` view of resolvable paths yields exactly those paths, each
      mapped to its own resolution. */
  lemma ListView(s: Store, view: string, parseJson: string -> Option<Parsed>, entries: seq<Value>)
    requires Asks(s, view, parseJson, "list", List(entries))
    requires Resolvable(s, entries)
    ensures ReadView(s, view, parseJson).Ok?
    ensures ReadView(s, view, parseJson).value.Keys == Named(entries)
    ensures forall p :: p in Named(entries) ==>
      ReadView(s, view, parseJson).value[p] == Mapping(ReadData(s, p, false).value)
  {
    EvaluateLists(s, entries, map[]);
  }

  /** A `merge` view of resolvable paths yields the merge of their
      resolutions in order, a later path overriding an earlier one on a
      colliding key. */
  lemma MergeView(s: Store, view: string, parseJson: string -> Option<Parsed>, entries: seq<Value>)
    requires Asks(s, view, parseJson, "merge", List(entries))
    requires Resolvable(s, entries)
    ensures ReadView(s, view, parseJson) == Ok(Merged(Resolutions(s, entries)))
  {
    MergeViewIsFold(s, entries);
  }

  /** In a `list` or `merge` view, the first path that does not resolve,
      because a document on its chain is missing or does not load, fails
      the whole view with 404. */
  lemma ViewOfUnresolvedPath(s: Store, view: string, parseJson: string -> Option<Parsed>, verb: string, entries: seq<Value>, i: nat)
    requires verb == "list" || verb == "merge"
    requires Asks(s, view, parseJson, verb, List(entries))
    requires i < |entries| && Resolvable(s, entries[..i])
    requires entries[i].Str? && !AllLoad(s.files, Chain(entries[i].s))
    ensures ReadView(s, view, parseJson) == Err(NotFound)
  {
    ReadDataIsMerge(s, entries[i].s);
    UnresolvedPathFails(s, verb, entries, map[], i);
  }

  /** A verb other than `list` and `merge` is refused with 406, but only
      when its value has an entry to enumerate, since the check sits inside
      the loop over the entries. */
  lemma UnsupportedVerb(s: Store, view: string, parseJson: string -> Option<Parsed>, verb: string, value: Value)
    requires verb != "list" && verb != "merge"
    requires Asks(s, view, parseJson, verb, value)
    requires value.List? || value.Mapping?
    ensures ReadView(s, view, parseJson) ==
      if value == List([]) || value == Mapping(map[]) then Ok(map[]) else Err(NotAcceptable)
  {
  }

  /** A stored view is used in preference to the argument: the JSON
      parser is not consulted at all. */
  lemma StoredViewWins(s: Store, view: string, p: string -> Option<Parsed>, q: string -> Option<Parsed>)
    requires s.views.Some? && ViewName(view) in s.views.value
    ensures ReadView(s, view, p) == ReadView(s, view, q)
  {
    assert ViewSource(s, view, p) == ViewSource(s, view, q);
  }
}

=== FILE: watcher.dfy ===
/** The change watcher: the `FileWatcher` construction counter, and the
    callback that turns a modified file into spawned commands and HTTP
    requests. Watching, spawning and requesting are left to the caller:
    the callback returns what it would start. */
module Watcher {
  import opened Outcomes
  import opened Strings
  import opened Documents

  /** The class-wide `@@count` of `FileWatcher`. */
  datatype Registry = Registry(count: int)

  /** What touches the counter: constructing a watcher, or `count=`. */
  datatype Op = Construct | Assign(value: int)

  /** One operation on the counter. */
  function Apply(r: Registry, op: Op): (t: Registry)
    ensures op.Construct? ==> t.count == r.count + 1
    ensures op.Assign? ==> t.count == op.value
  {
    match op
    case Construct => Registry(r.count + 1)
    case Assign(v) => Registry(v)
  }

  /** A sequence of operations, applied in order. */
  function Run(r: Registry, ops: seq<Op>): Registry
    decreases |ops|
  {
    if ops == [] then r
    else Apply(Run(r, ops[..|ops| - 1]), ops[|ops| - 1])
  }

  /** The position of the last `count=` in `ops`, if any. */
  function LastAssign(ops: seq<Op>): (r: Option<nat>)
    ensures r.Some? ==> r.value < |ops| && ops[r.value].Assign?
    ensures r.Some? ==> forall j :: r.value < j < |ops| ==> ops[j].Construct?
    ensures r.None? ==> forall j :: 0 <= j < |ops| ==> ops[j].Construct?
    decreases |ops|
  {
    if ops == [] then None
    else if ops[|ops| - 1].Assign? then Some(|ops| - 1)
    else
      var init := ops[..|ops| - 1];
      assert forall j :: 0 <= j < |init| ==> init[j] == ops[j];
      LastAssign(init)
  }

  /** The counter after a run: the last value assigned to it (or its
      starting value) plus one for every watcher constructed since. */
  lemma {:induction false} RunCount(r: Registry, ops: seq<Op>)
    ensures Run(r, ops).count == match LastAssign(ops)
      case None => r.count + |ops|
      case Some(i) => ops[i].value + (|ops| - 1 - i)
    decreases |ops|
  {
    if ops != [] {
      var init := ops[..|ops| - 1];
      RunCount(r, init);
      if ops[|ops| - 1].Construct? {
        match LastAssign(init)
        case None =>
        case Some(i) =>
          assert init[i] == ops[i];
      }
    }
  }

  /** Without `count=`, each construction raises the counter by exactly
      one and nothing lowers it. */
  lemma ConstructionsOnly(r: Registry, ops: seq<Op>, k: nat)
    requires forall j :: 0 <= j < |ops| ==> ops[j].Construct?
    requires k <= |ops|
    ensures Run(r, ops).count == r.count + |ops|
    ensures Run(r, ops[..k]).count <= Run(r, ops).count
  {
    RunCount(r, ops);
    RunCount(r, ops[..k]);
    assert forall j :: 0 <= j < k ==> ops[..k][j] == ops[j];
  }

  /** `count=` overwrites: whatever came before, the counter then holds
      the value given. */
  lemma AssignOverwrites(r: Registry, ops: seq<Op>, v: int)
    ensures Run(r, ops + [Assign(v)]).count == v
  {
    assert (ops + [Assign(v)])[..|ops|] == ops;
  }

  /** What a matching rule starts: a child process running the action,
      or an HTTP GET of the action as a URL. */
  datatype Intent = Spawn(command: string) | Get(url: string)

  /** What one matching rule does: start one intent, or raise because the
      action is not a string or has no first token. */
  datatype Action = Fires(intent: Intent) | Raises

  /** The outcome of one event: the intents started, in order, and whether
      the callback raised before reaching the end of the rule table. */
  datatype Dispatch = Dispatch(intents: seq<Intent>, aborted: bool)

  /** The first space-delimited token of an action, if it has one. */
  function FirstToken(action: string): (r: Option<string>)
    ensures r.Some? ==> Split(action, ' ') != [] && r.value == Split(action, ' ')[0]
    ensures r.None? ==> Split(action, ' ') == []
  {
    var tokens := Split(action, ' ');
    if tokens == [] then None else Some(tokens[0])
  }

  /** Classification of a matching rule's action. When the first token
      names an executable file (`executable`), the action is spawned;
      otherwise it is requested as a URL. An action that is not a string,
      or whose split leaves no first token, raises. */
  function Classify(action: Value, executable: string -> bool): (a: Action)
    ensures a.Fires? <==> action.Str? && FirstToken(action.s).Some?
    ensures a.Fires? ==> (a.intent == Spawn(action.s) <==> executable(FirstToken(action.s).value))
    ensures a.Fires? ==> (a.intent == Get(action.s) <==> !executable(FirstToken(action.s).value))
  {
    if !action.Str? then Raises
    else match FirstToken(action.s)
      case None => Raises
      case Some(token) => if executable(token) then Fires(Spawn(action.s)) else Fires(Get(action.s))
  }

  /** The rules of the table whose path is exactly `changed`. */
  function Matching(changed: string, rules: seq<(string, Value)>): (r: seq<(string, Value)>)
    ensures |r| <= |rules|
    ensures forall j :: 0 <= j < |r| ==> r[j].0 == changed && r[j] in rules
    ensures forall i :: 0 <= i < |rules| && rules[i].0 == changed ==> rules[i] in r
    decreases |rules|
  {
    if rules == [] then []
    else if rules[0].0 == changed then [rules[0]] + Matching(changed, rules[1..])
    else Matching(changed, rules[1..])
  }

  /** The walk over the rule table for one changed name: each matching
      rule in turn starts its intent, until one raises. */
  function Fire(changed: string, rules: seq<(string, Value)>, executable: string -> bool): (d: Dispatch)
    ensures |d.intents| <= |Matching(changed, rules)|
    ensures !d.aborted ==> |d.intents| == |Matching(changed, rules)|
    decreases |rules|
  {
    if rules == [] then Dispatch([], false)
    else
      var rest := Fire(changed, rules[1..], executable);
      if rules[0].0 != changed then rest
      else match Classify(rules[0].1, executable)
        case Raises => Dispatch([], true)
        case Fires(intent) => Dispatch([intent] + rest.intents, rest.aborted)
  }

  /** A rule for the changed name whose action cannot be classified. */
  predicate Malformed(changed: string, rule: (string, Value), executable: string -> bool) {
    rule.0 == changed && Classify(rule.1, executable).Raises?
  }

  /** The callback raises exactly when a rule for the changed name has an
      action that cannot be classified. */
  lemma {:induction false} FireRaises(changed: string, rules: seq<(string, Value)>, executable: string -> bool)
    ensures Fire(changed, rules, executable).aborted <==>
      exists i :: 0 <= i < |rules| && Malformed(changed, rules[i], executable)
    decreases |rules|
  {
    if rules != [] {
      var tail := rules[1..];
      FireRaises(changed, tail, executable);
      var rest := Fire(changed, tail, executable);
      if Malformed(changed, rules[0], executable) {
        assert Fire(changed, rules, executable).aborted;
      } else {
        assert Fire(changed, rules, executable).aborted == rest.aborted;
        if rest.aborted {
          var i :| 0 <= i < |tail| && Malformed(changed, tail[i], executable);
          assert rules[i + 1] == tail[i];
        } else {
          forall i | 0 <= i < |rules|
            ensures !Malformed(changed, rules[i], executable)
          {
            if i > 0 {
              assert rules[i] == tail[i - 1];
            }
          }
        }
      }
    }
  }

  /** Every intent started comes from a rule whose path is exactly the
      changed name: the j-th intent is what the j-th matching rule's
      action classifies as. */
  lemma {:induction false} FireIntents(changed: string, rules: seq<(string, Value)>, executable: string -> bool)
    ensures forall j :: 0 <= j < |Fire(changed, rules, executable).intents| ==>
      Classify(Matching(changed, rules)[j].1, executable) == Fires(Fire(changed, rules, executable).intents[j])
    decreases |rules|
  {
    if rules != [] {
      var tail := rules[1..];
      FireIntents(changed, tail, executable);
      if rules[0].0 == changed && Classify(rules[0].1, executable).Fires? {
        var d := Fire(changed, rules, executable);
        var rest := Fire(changed, tail, executable);
        var m := Matching(changed, rules);
        assert d.intents == [Classify(rules[0].1, executable).intent] + rest.intents;
        assert m == [rules[0]] + Matching(changed, tail);
        forall j | 0 <= j < |d.intents|
          ensures Classify(m[j].1, executable) == Fires(d.intents[j])
        {
          if j > 0 {
            assert d.intents[j] == rest.intents[j - 1];
            assert m[j] == Matching(changed, tail)[j - 1];
          }
        }
      }
    }
  }

  /** Only exact matches matter: the outcome is the same as that of the
      table cut down to the rules whose path equals the changed name, so
      a rule for a prefix of the name, or for a pattern, never fires. */
  lemma {:induction false} FireOnlyOnMatch(changed: string, rules: seq<(string, Value)>, executable: string -> bool)
    ensures Fire(changed, rules, executable) == Fire(changed, Matching(changed, rules), executable)
    decreases |rules|
  {
    if rules != [] {
      FireOnlyOnMatch(changed, rules[1..], executable);
      if rules[0].0 == changed {
        var m := Matching(changed, rules);
        assert m[0] == rules[0] && m[1..] == Matching(changed, rules[1..]);
      }
    }
  }

  lemma {:induction false} NoMatch(changed: string, rules: seq<(string, Value)>)
    requires forall i :: 0 <= i < |rules| ==> rules[i].0 != changed
    ensures Matching(changed, rules) == []
    decreases |rules|
  {
    if rules != [] {
      assert forall i :: 0 <= i < |rules| - 1 ==> rules[1..][i] == rules[i + 1];
      NoMatch(changed, rules[1..]);
    }
  }

  lemma {:induction false} SoleMatch(changed: string, rules: seq<(string, Value)>, i: nat)
    requires Distinct(rules) && i < |rules| && rules[i].0 == changed
    ensures Matching(changed, rules) == [rules[i]]
    decreases |rules|
  {
    var tail := rules[1..];
    assert forall j :: 0 <= j < |tail| ==> tail[j] == rules[j + 1];
    if i == 0 {
      NoMatch(changed, tail);
    } else {
      SoleMatch(changed, tail, i - 1);
    }
  }

  /** A mapping has one rule per path, so one event starts at most one
      action: exactly the one its rule's action classifies as, or none
      when no rule names the changed file. */
  lemma FireAtMostOnce(changed: string, rules: seq<(string, Value)>, executable: string -> bool)
    requires Distinct(rules)
    ensures (forall i :: 0 <= i < |rules| ==> rules[i].0 != changed) ==>
      Fire(changed, rules, executable) == Dispatch([], false)
    ensures forall i :: 0 <= i < |rules| && rules[i].0 == changed ==>
      Fire(changed, rules, executable) == match Classify(rules[i].1, executable)
        case Raises => Dispatch([], true)
        case Fires(intent) => Dispatch([intent], false)
  {
    FireOnlyOnMatch(changed, rules, executable);
    if forall i :: 0 <= i < |rules| ==> rules[i].0 != changed {
      NoMatch(changed, rules);
    }
    forall i | 0 <= i < |rules| && rules[i].0 == changed
      ensures Fire(changed, rules, executable) == match Classify(rules[i].1, executable)
        case Raises => Dispatch([], true)
        case Fires(intent) => Dispatch([intent], false)
    {
      SoleMatch(changed, rules, i);
      assert [rules[i]][1..] == [];
    }
  }

  /** The name an event reports, relative to the database directory: the
      first occurrence of the directory's name is removed. */
  function ChangedName(absoluteName: string, db: string): (r: string)
    ensures |r| <= |absoluteName|
  {
    RemoveFirst(absoluteName, db)
  }

  /** A name under the database directory is seen relative to it. */
  lemma ChangedNameOfNested(db: string, rel: string)
    ensures ChangedName(db + rel, db) == rel
  {
    RemoveFirstOfPrefix(db, rel);
  }

  /** On the entries of a Hash, the walk is a lookup: the rule stored
      for the changed name decides the outcome alone, and a name without
      a rule starts nothing. */
  lemma FireOnEntries(changed: string, pairs: seq<(string, Value)>, executable: string -> bool)
    ensures changed !in ToMap(pairs) ==> Fire(changed, Entries(pairs), executable) == Dispatch([], false)
    ensures changed in ToMap(pairs) ==>
      Fire(changed, Entries(pairs), executable) == match Classify(ToMap(pairs)[changed], executable)
        case Raises => Dispatch([], true)
        case Fires(intent) => Dispatch([intent], false)
  {
    var es := Entries(pairs);
    FireAtMostOnce(changed, es, executable);
    if changed in ToMap(pairs) {
      var i := Position(es, changed);
    } else {
      forall i | 0 <= i < |es|
        ensures es[i].0 != changed
      {
        InKeys(es, i);
      }
    }
  }

  /** The callback for one event. The rule table is read afresh from the
      callback file (`rules`, `None` when the file is missing) on every
      event; a table that does not load, or is not a mapping, raises
      before any rule is looked at. A mapping is walked as the Hash it
      loads into, one entry per path, so a path written twice has one
      rule, the later one. Failures to spawn or to request are logged
      inside the callback and so are not part of its outcome. */
  function Callback(absoluteName: string, db: string, rules: Option<Content<Parsed>>, executable: string -> bool): (d: Dispatch)
    ensures (rules.None? || rules == Some(Unparsable) || (rules.value.Loaded? && !rules.value.v.Hash?)) ==> d == Dispatch([], true)
    ensures rules.Some? && rules.value.Loaded? && rules.value.v.Hash? ==>
      var changed := ChangedName(absoluteName, db);
      var table := ToMap(rules.value.v.pairs);
      && d == Fire(changed, Matching(changed, Entries(rules.value.v.pairs)), executable)
      && (changed !in table ==> d == Dispatch([], false))
      && (changed in table ==> d == match Classify(table[changed], executable)
        case Raises => Dispatch([], true)
        case Fires(intent) => Dispatch([intent], false))
  {
    match rules
    case None => Dispatch([], true)
    case Some(Unparsable) => Dispatch([], true)
    case Some(Loaded(Text(_))) => Dispatch([], true)
    case Some(Loaded(NotHash)) => Dispatch([], true)
    case Some(Loaded(Hash(pairs))) =>
      var changed := ChangedName(absoluteName, db);
      FireOnlyOnMatch(changed, Entries(pairs), executable);
      FireOnEntries(changed, pairs, executable);
      Fire(changed, Entries(pairs), executable)
  }

  /** End to end: a change to `<db><rel>` under a table with a rule for
      `rel` starts that rule's action, spawned exactly when its first
      token is executable. */
  lemma CallbackOnRule(db: string, rel: string, pairs: seq<(string, Value)>, executable: string -> bool)
    requires rel in ToMap(pairs)
    requires ToMap(pairs)[rel].Str? && FirstToken(ToMap(pairs)[rel].s).Some?
    ensures var action := ToMap(pairs)[rel].s;
      Callback(db + rel, db, Some(Loaded(Hash(pairs))), executable) ==
      Dispatch([if executable(FirstToken(action).value) then Spawn(action) else Get(action)], false)
  {
    ChangedNameOfNested(db, rel);
  }

  /** A change to `<db><rel>` under a table without a rule for `rel`
      starts nothing. */
  lemma CallbackWithoutRule(db: string, rel: string, pairs: seq<(string, Value)>, executable: string -> bool)
    requires rel !in ToMap(pairs)
    ensures Callback(db + rel, db, Some(Loaded(Hash(pairs))), executable) == Dispatch([], false)
  {
    ChangedNameOfNested(db, rel);
  }
}

=== FILE: writes.dfy ===
/** The write path: `create_empty_yaml`, `update_yaml` and
    `delete_key_in_yaml`. Each is a function from the store before the
    call to the store after it. File-system faults, which the source
    rescues, are parameters. */
module Writes {
  import opened Outcomes
  import opened Paths
  import opened Documents
  import opened Resolver

  /** Which file-system call raises at a node: creating its directory, or
      writing its empty document. */
  datatype Fault = MkdirFails | WriteFails

  /** Every prefix of `d`, the database directory included: what
      `FileUtils.mkdir_p` leaves in place. */
  function Ancestors(d: Path): set<Path> {
    set i | 0 <= i <= |d| :: d[..i]
  }

  /** The ancestors of `d` are exactly the paths `d` starts with. */
  lemma AncestorsArePrefixes(d: Path, p: Path)
    ensures p in Ancestors(d) <==> |p| <= |d| && d[..|p|] == p
  {
    if |p| <= |d| && d[..|p|] == p {
      assert d[..|p|] in Ancestors(d);
    }
  }

  /** The prefixes of a path are prefixes of any longer path. */
  lemma AncestorsGrow(d: Path, x: Path)
    ensures Ancestors(d) <= Ancestors(d + x)
  {
    forall p | p in Ancestors(d)
      ensures p in Ancestors(d + x)
    {
      AncestorsArePrefixes(d, p);
      assert (d + x)[..|p|] == d[..|p|];
      AncestorsArePrefixes(d + x, p);
    }
  }

  /** The document a new node starts with: an empty mapping. */
  const Empty: Content<Value> := Loaded(Mapping(map[]))

  /** `mkdir_p(d)` has to make a directory whose name a document file
      already has: some prefix of `d` that is not a directory is
      `Occupied`. */
  predicate MkdirBlocked(s: Store, d: Path) {
    exists i :: 0 < i <= |d| && d[..i] !in s.dirs && Occupied(s.files, d[..i])
  }

  /** The document file of `d` cannot be written because a directory has
      its name. */
  predicate WriteBlocked(s: Store, d: Path) {
    d != [] && DocEntry(d) in s.dirs
  }

  /** Nothing already in the store stands in the way of node `d`. */
  predicate Clear(s: Store, d: Path) {
    !MkdirBlocked(s, d) && (d in s.files || !WriteBlocked(s, d))
  }

  /** The prefixes of a prefix of `d` are prefixes of `d`. */
  lemma AncestorsOfAncestor(d: Path, p: Path)
    requires p in Ancestors(d)
    ensures Ancestors(p) <= Ancestors(d)
  {
    AncestorsArePrefixes(d, p);
    forall q | q in Ancestors(p)
      ensures q in Ancestors(d)
    {
      AncestorsArePrefixes(p, q);
      assert d[..|q|] == p[..|q|];
      AncestorsArePrefixes(d, q);
    }
  }

  /** A node's directory never has the name of the node's own document. */
  lemma DocEntryNotAncestor(d: Path)
    requires d != []
    ensures DocEntry(d) !in Ancestors(d)
  {
    var e := DocEntry(d);
    AncestorsArePrefixes(d, e);
    assert |e[|e| - 1]| != |d[|d| - 1]|;
  }

  /** One step of `create_empty_yaml` at node `d`: create the directory
      if it is absent, then write an empty document if there is none. A
      call that raises is logged and ends the step: `mkdir_p` raises when
      a document file stands where it has to make a directory, and a
      failed mkdir skips the write as well; the write raises when a
      directory has the document's name. */
  function EnsureNode(s: Store, d: Path, faults: map<Path, Fault>): (t: Store)
    requires d != []
    ensures t.views == s.views && t.viewDirs == s.viewDirs && s.dirs <= t.dirs <= s.dirs + Ancestors(d)
    ensures forall p :: p in s.files ==> p in t.files && t.files[p] == s.files[p]
    ensures forall p :: p in t.files && p !in s.files ==> p == d && t.files[p] == Empty
    ensures t.files == s.files || t.files == s.files[d := Empty]
    ensures d !in faults && Clear(s, d) ==> d in t.dirs && d in t.files
    ensures d !in faults && !MkdirBlocked(s, d) ==> d in t.dirs
    ensures d in t.dirs && d !in t.files && d !in faults ==> WriteBlocked(s, d)
    ensures d !in s.dirs && MkdirBlocked(s, d) ==> t == s
    ensures d !in s.files && WriteBlocked(s, d) ==> d !in t.files
  {
    var fault := if d in faults then Some(faults[d]) else None;
    if d !in s.dirs && (fault == Some(MkdirFails) || MkdirBlocked(s, d)) then s
    else
      var dirs := if d in s.dirs then s.dirs else s.dirs + Ancestors(d);
      var files := if d in s.files || WriteBlocked(s, d) || fault == Some(WriteFails) then s.files else s.files[d := Empty];
      assert d in dirs by {
        if d !in s.dirs {
          assert d[..|d|] == d;
        }
      }
      s.(dirs := dirs, files := files)
  }

  /** The directories a node step makes are free of document files, and
      come with all their prefixes; a document it writes has no directory
      of its name. */
  lemma EnsureNodeFree(s: Store, d: Path, faults: map<Path, Fault>)
    requires d != []
    ensures var t := EnsureNode(s, d, faults);
      forall p :: p in t.dirs && p !in s.dirs ==> !Occupied(s.files, p) && Ancestors(p) <= t.dirs
    ensures var t := EnsureNode(s, d, faults);
      d in t.files && d !in s.files ==> !WriteBlocked(t, d)
  {
    var t := EnsureNode(s, d, faults);
    forall p | p in t.dirs && p !in s.dirs
      ensures !Occupied(s.files, p) && Ancestors(p) <= t.dirs
    {
      assert t.dirs == s.dirs + Ancestors(d);
      AncestorsArePrefixes(d, p);
      assert d[..|p|] == p;
      AncestorsOfAncestor(d, p);
    }
    DocEntryNotAncestor(d);
  }

  /** A node step keeps a consistent tree consistent. */
  lemma EnsureNodeConsistent(s: Store, d: Path, faults: map<Path, Fault>)
    requires d != [] && Consistent(s)
    ensures Consistent(EnsureNode(s, d, faults))
  {
    var t := EnsureNode(s, d, faults);
    EnsureNodeFree(s, d, faults);
    forall p | p in t.dirs
      ensures !Occupied(t.files, p)
    {
      OccupiedByNew(s.files, d, Empty, p);
    }
  }

  /** The nodes a walk from `dir` over `steps` visits; empty steps are
      skipped. */
  function Nodes(dir: Path, steps: seq<string>): set<Path>
    decreases |steps|
  {
    if steps == [] then {}
    else if steps[0] == "" then Nodes(dir, steps[1..])
    else {dir + [steps[0]]} + Nodes(dir + [steps[0]], steps[1..])
  }

  /** Every node lies strictly below where the walk starts. */
  lemma {:induction false} NodesBelow(dir: Path, steps: seq<string>, x: Path)
    requires x in Nodes(dir, steps)
    ensures |x| > |dir| && x[..|dir|] == dir
    decreases |steps|
  {
    if steps[0] == "" {
      NodesBelow(dir, steps[1..], x);
    } else if x != dir + [steps[0]] {
      NodesBelow(dir + [steps[0]], steps[1..], x);
      assert x[..|dir|] == x[..|dir| + 1][..|dir|];
    }
  }

  /** The walk of `create_empty_yaml` from `dir` over `steps`. */
  function CreateSteps(s: Store, dir: Path, steps: seq<string>, faults: map<Path, Fault>): (t: Store)
    ensures t.views == s.views && t.viewDirs == s.viewDirs && s.dirs <= t.dirs
    ensures forall p :: p in s.files ==> p in t.files && t.files[p] == s.files[p]
    ensures forall p :: p in t.files && p !in s.files ==> p in Nodes(dir, steps) && t.files[p] == Empty
    decreases |steps|
  {
    if steps == [] then s
    else if steps[0] == "" then CreateSteps(s, dir, steps[1..], faults)
    else
      var d := dir + [steps[0]];
      CreateSteps(EnsureNode(s, d, faults), d, steps[1..], faults)
  }

  /** A node step above `d2` leaves nothing new in the way of `d2`: its
      document takes a name at its own depth, and its directories lie
      above `d2`'s document. */
  lemma ClearPersists(s: Store, d: Path, faults: map<Path, Fault>, d2: Path)
    requires d != [] && |d2| > |d| && d2[..|d|] == d && Clear(s, d2)
    ensures Clear(EnsureNode(s, d, faults), d2)
  {
    var u := EnsureNode(s, d, faults);
    forall i | 0 < i <= |d2| && d2[..i] !in u.dirs
      ensures !Occupied(u.files, d2[..i])
    {
      OccupiedByNew(s.files, d, Empty, d2[..i]);
      DocEntryNotBelow(d, d2, i);
    }
    AncestorsArePrefixes(d, DocEntry(d2));
  }

  /** No prefix of a path below `d` is the document of `d`. */
  lemma DocEntryNotBelow(d: Path, d2: Path, i: nat)
    requires d != [] && |d2| > |d| && d2[..|d|] == d && 0 < i <= |d2|
    ensures d2[..i] != DocEntry(d)
  {
    if i == |d| {
      assert d2[..i] == d;
      assert |DocEntry(d)[|d| - 1]| == |d[|d| - 1]| + 5;
    }
  }

  /** Every node that nothing stands in the way of, and that no fault
      hits, ends the walk with its directory and its document. */
  lemma {:induction false} CreateStepsMakes(s: Store, dir: Path, steps: seq<string>, faults: map<Path, Fault>)
    ensures forall d :: d in Nodes(dir, steps) && d !in faults && Clear(s, d) ==>
      d in CreateSteps(s, dir, steps, faults).dirs && d in CreateSteps(s, dir, steps, faults).files
    decreases |steps|
  {
    if steps != [] {
      if steps[0] == "" {
        CreateStepsMakes(s, dir, steps[1..], faults);
      } else {
        var d := dir + [steps[0]];
        var u := EnsureNode(s, d, faults);
        var t := CreateSteps(u, d, steps[1..], faults);
        assert CreateSteps(s, dir, steps, faults) == t;
        CreateStepsMakes(u, d, steps[1..], faults);
        forall d2 | d2 in Nodes(d, steps[1..]) && Clear(s, d2)
          ensures Clear(u, d2)
        {
          NodesBelow(d, steps[1..], d2);
          ClearPersists(s, d, faults, d2);
        }
      }
    }
  }

  /** The directories the walk makes are free of document files and come
      with all their prefixes. */
  lemma {:induction false} CreateStepsFree(s: Store, dir: Path, steps: seq<string>, faults: map<Path, Fault>)
    ensures var t := CreateSteps(s, dir, steps, faults);
      forall p :: p in t.dirs && p !in s.dirs ==> !Occupied(s.files, p) && Ancestors(p) <= t.dirs
    decreases |steps|
  {
    if steps != [] {
      if steps[0] == "" {
        CreateStepsFree(s, dir, steps[1..], faults);
      } else {
        var d := dir + [steps[0]];
        var u := EnsureNode(s, d, faults);
        var t := CreateSteps(u, d, steps[1..], faults);
        assert CreateSteps(s, dir, steps, faults) == t;
        EnsureNodeFree(s, d, faults);
        CreateStepsFree(u, d, steps[1..], faults);
        forall p | p in t.dirs && p !in s.dirs
          ensures !Occupied(s.files, p) && Ancestors(p) <= t.dirs
        {
          if p !in u.dirs {
            assert !Occupied(u.files, p);
          }
        }
      }
    }
  }

  /** The walk keeps a consistent tree consistent. */
  lemma {:induction false} CreateStepsConsistent(s: Store, dir: Path, steps: seq<string>, faults: map<Path, Fault>)
    requires Consistent(s)
    ensures Consistent(CreateSteps(s, dir, steps, faults))
    decreases |steps|
  {
    if steps != [] {
      if steps[0] == "" {
        CreateStepsConsistent(s, dir, steps[1..], faults);
      } else {
        var d := dir + [steps[0]];
        EnsureNodeConsistent(s, d, faults);
        CreateStepsConsistent(EnsureNode(s, d, faults), d, steps[1..], faults);
      }
    }
  }

  /** A node whose document name is taken by a directory gets no
      document. */
  lemma {:induction false} CreateStepsBlockedWrite(s: Store, dir: Path, steps: seq<string>, faults: map<Path, Fault>)
    ensures forall d :: d in Nodes(dir, steps) && d !in s.files && WriteBlocked(s, d) ==>
      d !in CreateSteps(s, dir, steps, faults).files
    decreases |steps|
  {
    if steps != [] {
      if steps[0] == "" {
        CreateStepsBlockedWrite(s, dir, steps[1..], faults);
      } else {
        var d := dir + [steps[0]];
        var u := EnsureNode(s, d, faults);
        var t := CreateSteps(u, d, steps[1..], faults);
        assert CreateSteps(s, dir, steps, faults) == t;
        CreateStepsBlockedWrite(u, d, steps[1..], faults);
        if d !in s.files && WriteBlocked(s, d) && d in t.files {
          NodesBelow(d, steps[1..], d);
        }
        forall d2 | d2 in Nodes(d, steps[1..]) && d2 !in s.files && WriteBlocked(s, d2)
          ensures d2 !in u.files && WriteBlocked(u, d2)
        {
          NodesBelow(d, steps[1..], d2);
        }
      }
    }
  }

  /** The walk makes no directory but the prefixes of where it ends:
      `mkdir_p` at each node makes only that node's prefixes, and every
      node is a prefix of the last. */
  lemma {:induction false} CreateStepsDirs(s: Store, dir: Path, steps: seq<string>, faults: map<Path, Fault>)
    ensures CreateSteps(s, dir, steps, faults).dirs <= s.dirs + Ancestors(dir + NonEmpty(steps))
    decreases |steps|
  {
    if steps == [] {
    } else if steps[0] == "" {
      CreateStepsDirs(s, dir, steps[1..], faults);
      assert CreateSteps(s, dir, steps, faults) == CreateSteps(s, dir, steps[1..], faults);
      assert NonEmpty(steps) == [] + NonEmpty(steps[1..]) == NonEmpty(steps[1..]);
      assert dir + NonEmpty(steps) == dir + NonEmpty(steps[1..]);
    } else {
      var d := dir + [steps[0]];
      var rest := NonEmpty(steps[1..]);
      var u := EnsureNode(s, d, faults);
      var t := CreateSteps(u, d, steps[1..], faults);
      assert CreateSteps(s, dir, steps, faults) == t;
      CreateStepsDirs(u, d, steps[1..], faults);
      DescendEnd(dir, steps);
      AncestorsGrow(d, rest);
      Within(s.dirs, u.dirs, t.dirs, Ancestors(d), Ancestors(d + rest));
    }
  }

  /** A non-empty first step moves the walk one level down towards the
      same end. */
  lemma DescendEnd(dir: Path, steps: seq<string>)
    requires steps != [] && steps[0] != ""
    ensures dir + NonEmpty(steps) == dir + [steps[0]] + NonEmpty(steps[1..])
  {
    assert NonEmpty(steps) == [steps[0]] + NonEmpty(steps[1..]);
  }

  /** Two growth steps bounded by `x` and then by the larger `y` stay
      within `y`. */
  lemma Within(a: set<Path>, b: set<Path>, c: set<Path>, x: set<Path>, y: set<Path>)
    requires b <= a + x && c <= b + y && x <= y
    ensures c <= a + y
  {
  }

  /** `create_empty_yaml(path)`. It never overwrites: every existing
      document is kept as it was, and the only new documents are empty
      mappings at the path's nodes. A fault at one node is logged and the
      walk goes on, so every other node that nothing stands in the way of
      still gets its directory and document. The only directories made
      are prefixes of the path's own. (The source then returns `true`
      whatever happened.) */
  function CreateEmptyYaml(s: Store, path: string, faults: map<Path, Fault>): (t: Store)
    ensures t.views == s.views && t.viewDirs == s.viewDirs && s.dirs <= t.dirs <= s.dirs + Ancestors(DirKey(path))
    ensures forall p :: p in s.files ==> p in t.files && t.files[p] == s.files[p]
    ensures forall p :: p in t.files && p !in s.files ==> p in Nodes([], Steps(path)) && t.files[p] == Empty
    ensures forall d :: d in Nodes([], Steps(path)) && d !in faults && Clear(s, d) ==> d in t.dirs && d in t.files
  {
    DirKeyOfSteps(path);
    assert [] + NonEmpty(Steps(path)) == DirKey(path);
    CreateStepsDirs(s, [], Steps(path), faults);
    CreateStepsMakes(s, [], Steps(path), faults);
    CreateSteps(s, [], Steps(path), faults)
  }

  /** A directory that `mkdir_p` would have to make through a document
      file is not made by the walk. */
  lemma CreateStepsBlockedDirs(s: Store, dir: Path, steps: seq<string>, faults: map<Path, Fault>, d: Path)
    requires d !in s.dirs && MkdirBlocked(s, d)
    ensures d !in CreateSteps(s, dir, steps, faults).dirs
  {
    var i :| 0 < i <= |d| && d[..i] !in s.dirs && Occupied(s.files, d[..i]);
    CreateStepsFree(s, dir, steps, faults);
    if d in CreateSteps(s, dir, steps, faults).dirs {
      assert false;
    }
  }

  /** What stands in the way stays there. A directory that `mkdir_p` would
      have to make through a document file is not made. A node whose
      document name is a directory gets no document. A consistent tree
      stays consistent. */
  lemma CreateBlocked(s: Store, path: string, faults: map<Path, Fault>)
    ensures var t := CreateEmptyYaml(s, path, faults);
      forall d :: d !in s.dirs && MkdirBlocked(s, d) ==> d !in t.dirs
    ensures var t := CreateEmptyYaml(s, path, faults);
      forall d :: d in Nodes([], Steps(path)) && d !in s.files && WriteBlocked(s, d) ==> d !in t.files
    ensures Consistent(s) ==> Consistent(CreateEmptyYaml(s, path, faults))
  {
    CreateStepsBlockedWrite(s, [], Steps(path), faults);
    if Consistent(s) {
      CreateStepsConsistent(s, [], Steps(path), faults);
    }
    forall d | d !in s.dirs && MkdirBlocked(s, d)
      ensures d !in CreateEmptyYaml(s, path, faults).dirs
    {
      CreateStepsBlockedDirs(s, [], Steps(path), faults, d);
    }
  }

  /** A node is settled once a fault-free step there changes nothing:
      its directory is there and its document is there or cannot be
      written, or its directory cannot be made. */
  predicate Settled(t: Store, d: Path) {
    || (d in t.dirs && (d in t.files || WriteBlocked(t, d)))
    || (d !in t.dirs && MkdirBlocked(t, d))
  }

  /** A fault-free step settles its node. */
  lemma EnsureNodeSettles(s: Store, d: Path)
    requires d != []
    ensures Settled(EnsureNode(s, d, map[]), d)
  {
    var t := EnsureNode(s, d, map[]);
    if d !in s.dirs && MkdirBlocked(s, d) {
      assert t == s;
    }
  }

  /** A fault-free step at a settled node changes nothing. */
  lemma EnsureNodeNoop(t: Store, d: Path)
    requires d != [] && Settled(t, d)
    ensures EnsureNode(t, d, map[]) == t
  {
    if d in t.dirs {
      assert t.(dirs := t.dirs, files := t.files) == t;
    }
  }

  /** After a fault-free walk every node is settled. */
  lemma {:induction false} CreateStepsSettles(s: Store, dir: Path, steps: seq<string>)
    ensures forall d :: d in Nodes(dir, steps) ==> Settled(CreateSteps(s, dir, steps, map[]), d)
    decreases |steps|
  {
    if steps != [] {
      if steps[0] == "" {
        CreateStepsSettles(s, dir, steps[1..]);
      } else {
        var d := dir + [steps[0]];
        var u := EnsureNode(s, d, map[]);
        var t := CreateSteps(u, d, steps[1..], map[]);
        assert CreateSteps(s, dir, steps, map[]) == t;
        CreateStepsSettles(u, d, steps[1..]);
        EnsureNodeSettles(s, d);
        if d !in u.dirs {
          var i :| 0 < i <= |d| && d[..i] !in u.dirs && Occupied(u.files, d[..i]);
          CreateStepsBlockedDirs(u, d, steps[1..], map[], d);
          assert d[..i][..i] == d[..i];
          assert MkdirBlocked(u, d[..i]);
          CreateStepsBlockedDirs(u, d, steps[1..], map[], d[..i]);
        }
      }
    }
  }

  lemma {:induction false} CreateStepsNoop(t: Store, dir: Path, steps: seq<string>)
    requires forall d :: d in Nodes(dir, steps) ==> Settled(t, d)
    ensures CreateSteps(t, dir, steps, map[]) == t
    decreases |steps|
  {
    if steps != [] {
      if steps[0] == "" {
        CreateStepsNoop(t, dir, steps[1..]);
      } else {
        var d := dir + [steps[0]];
        EnsureNodeNoop(t, d);
        CreateStepsNoop(t, d, steps[1..]);
      }
    }
  }

  /** Creating a node is idempotent: without faults, a second call finds
      every node settled and changes nothing. */
  lemma CreateIdempotent(s: Store, path: string)
    ensures CreateEmptyYaml(CreateEmptyYaml(s, path, map[]), path, map[]) == CreateEmptyYaml(s, path, map[])
  {
    CreateStepsSettles(s, [], Steps(path));
    CreateStepsNoop(CreateEmptyYaml(s, path, map[]), [], Steps(path));
  }

  lemma {:induction false} NodesReachEnd(dir: Path, steps: seq<string>)
    requires steps != [] && forall i :: 0 <= i < |steps| ==> steps[i] != ""
    ensures dir + steps in Nodes(dir, steps)
    decreases |steps|
  {
    if |steps| > 1 {
      NodesReachEnd(dir + [steps[0]], steps[1..]);
      assert dir + [steps[0]] + steps[1..] == dir + steps;
    } else {
      assert steps == [steps[0]];
    }
  }

  /** After a fault-free creation of a clean path whose leaf nothing
      stands in the way of, the path has its document, so `update_yaml`
      on it no longer answers 404. */
  lemma CreateMakesLeaf(s: Store, path: string)
    requires Clean(path) && Clear(s, LeafKey(path))
    ensures LeafKey(path) in CreateEmptyYaml(s, path, map[]).files
    ensures DirKey(path) in CreateEmptyYaml(s, path, map[]).dirs
  {
    CleanChain(path);
    NodesReachEnd([], Steps(path));
    assert [] + Steps(path) == Steps(path);
  }

  /** A clean path whose document name is already a directory gets no
      document: the write raises and is rescued. */
  lemma CreateBesideDirectory(s: Store, path: string, faults: map<Path, Fault>)
    requires Clean(path) && LeafKey(path) !in s.files && WriteBlocked(s, LeafKey(path))
    ensures LeafKey(path) !in CreateEmptyYaml(s, path, faults).files
  {
    CleanChain(path);
    NodesReachEnd([], Steps(path));
    assert [] + Steps(path) == Steps(path);
    CreateBlocked(s, path, faults);
  }

  /** The table `YAML::Store` reads from a file: a mapping as it is, the
      YAML `false` (an empty file) as an empty table; anything else makes
      the transaction raise. */
  function Table(c: Content<Value>): (r: Result<Doc>)
    ensures r.Ok? <==> c.Loaded? && (c.v.Mapping? || c.v == Bool(false))
    ensures r.Ok? ==> r.value == if c.v.Mapping? then c.v.m else map[]
    ensures r.Err? ==> r.code == InternalError
  {
    match c
    case Unparsable => Err(InternalError)
    case Loaded(v) =>
      if v.Mapping? then Ok(v.m)
      else if v == Bool(false) then Ok(map[])
      else Err(InternalError)
  }

  /** `store[key] = value` for each pair of the patch in turn. */
  function Upsert(table: Doc, pairs: seq<(string, Value)>): (r: Doc)
    ensures r.Keys == table.Keys + KeysOf(pairs)
    ensures forall k :: k in table && k !in KeysOf(pairs) ==> r[k] == table[k]
    decreases |pairs|
  {
    if pairs == [] then table
    else Upsert(table[pairs[0].0 := pairs[0].1], pairs[1..])
  }

  lemma UnionUpdate(a: Doc, b: Doc, k: string, v: Value)
    ensures (a + b)[k := v] == a + b[k := v]
  {
  }

  lemma {:induction false} ToMapCons(p: (string, Value), rest: seq<(string, Value)>)
    ensures ToMap([p] + rest) == map[p.0 := p.1] + ToMap(rest)
    decreases |rest|
  {
    if rest != [] {
      var xs := [p] + rest;
      var init := rest[..|rest| - 1];
      var q := rest[|rest| - 1];
      assert xs[..|xs| - 1] == [p] + init;
      assert xs[|xs| - 1] == q;
      assert ToMap(xs) == ToMap([p] + init)[q.0 := q.1];
      assert ToMap(rest) == ToMap(init)[q.0 := q.1];
      ToMapCons(p, init);
      UnionUpdate(map[p.0 := p.1], ToMap(init), q.0, q.1);
    }
  }

  lemma UpdateIsUnion(table: Doc, k: string, v: Value)
    ensures table[k := v] == table + map[k := v]
  {
  }

  /** Upserting the pairs one by one overrides the table with the patch
      they spell: each patched key takes its last value, every other key
      keeps its own. */
  lemma {:induction false} UpsertIsOverride(table: Doc, pairs: seq<(string, Value)>)
    ensures Upsert(table, pairs) == table + ToMap(pairs)
    decreases |pairs|
  {
    if pairs == [] {
      assert table + map[] == table;
    } else {
      var p := pairs[0];
      var rest := pairs[1..];
      var one := map[p.0 := p.1];
      UpsertIsOverride(table[p.0 := p.1], rest);
      assert Upsert(table, pairs) == table[p.0 := p.1] + ToMap(rest);
      ToMapCons(p, rest);
      assert [p] + rest == pairs;
      assert ToMap(pairs) == one + ToMap(rest);
      UpdateIsUnion(table, p.0, p.1);
      UnionAssoc(table, one, ToMap(rest));
    }
  }

  /** `update_yaml(path, data)`. The leaf document must already exist,
      or the answer is 404 before anything is written. The transaction
      answers 500 when the file holds no table, when the payload is not a
      Hash, or when the write fails (`writeFails`); otherwise it upserts
      every key of the payload into the leaf and changes nothing else. */
  function UpdateYaml(s: Store, path: string, data: Parsed, writeFails: bool): (r: Result<Store>)
    ensures LeafKey(path) !in s.files ==> r == Err(NotFound)
    ensures LeafKey(path) in s.files ==>
      (r.Err? <==> Table(s.files[LeafKey(path)]).Err? || !data.Hash? || writeFails)
    ensures LeafKey(path) in s.files && r.Err? ==> r.code == InternalError
    ensures r.Ok? ==> r.value.dirs == s.dirs && r.value.views == s.views
    ensures r.Ok? ==> r.value.files.Keys == s.files.Keys
    ensures r.Ok? ==> forall p :: p in s.files && p != LeafKey(path) ==> r.value.files[p] == s.files[p]
    ensures r.Ok? ==>
      r.value.files[LeafKey(path)] == Loaded(Mapping(Table(s.files[LeafKey(path)]).value + ToMap(data.pairs)))
  {
    var leaf := LeafKey(path);
    if leaf !in s.files then Err(NotFound)
    else
      var table :- Table(s.files[leaf]);
      match data
      case Text(_) => Err(InternalError)
      case NotHash => Err(InternalError)
      case Hash(pairs) =>
        if writeFails then Err(InternalError)
        else
          UpsertIsOverride(table, pairs);
          Ok(s.(files := s.files[leaf := Loaded(Mapping(Upsert(table, pairs)))]))
  }

  /** After an update of a clean path, resolving the path shows every
      patched key with its patched value: the leaf is the deepest
      document on the path. */
  lemma UpdateThenRead(s: Store, path: string, pairs: seq<(string, Value)>, k: string)
    requires Clean(path)
    requires UpdateYaml(s, path, Hash(pairs), false).Ok?
    requires ReadData(UpdateYaml(s, path, Hash(pairs), false).value, path, false).Ok?
    requires k in ToMap(pairs)
    ensures k in ReadData(UpdateYaml(s, path, Hash(pairs), false).value, path, false).value
    ensures ReadData(UpdateYaml(s, path, Hash(pairs), false).value, path, false).value[k] == ToMap(pairs)[k]
  {
    var t := UpdateYaml(s, path, Hash(pairs), false).value;
    CleanChain(path);
    ReadDataIsMerge(t, path);
    var chain := Chain(path);
    var n := |chain| - 1;
    var vs := Values(t.files, chain);
    assert chain[n] == LeafKey(path);
    assert LoadYaml(t.files, chain[n]) == Read(vs[n]);
    assert Defines(vs[n], k);
    ReadDataDeepestWins(t, path, k, n);
  }

  /** `delete_key_in_yaml(path, key)`: the key is removed from the one
      file `get_relevantfile` picks (the deepest one on the path that
      defines it), and every other document is left alone. When no file
      defines the key, the answer is `get_relevantfile`'s error. A write
      that fails (`writeFails`) is logged and the call still succeeds,
      leaving the store as it was. */
  function DeleteKeyInYaml(s: Store, path: string, key: string, writeFails: bool): (r: Result<Store>)
    ensures r.Err? <==> GetRelevantFile(s, path, key).Err?
    ensures r.Err? ==> r.code == GetRelevantFile(s, path, key).code
    ensures r.Ok? ==> r.value.dirs == s.dirs && r.value.views == s.views
    ensures r.Ok? && writeFails ==> r.value == s
    ensures r.Ok? && !writeFails ==>
      var loc := GetRelevantFile(s, path, key).value;
      && loc in s.files && s.files[loc].Loaded? && s.files[loc].v.Mapping?
      && r.value.files == s.files[loc := Loaded(Mapping(s.files[loc].v.m - {key}))]
  {
    var loc :- GetRelevantFile(s, path, key);
    if writeFails then Ok(s)
    else
      var c := s.files[loc];
      if c.Loaded? && c.v.Mapping? then Ok(s.(files := s.files[loc := Loaded(Mapping(c.v.m - {key}))]))
      else Ok(s)
  }
}
